=== FILE: README.md ===
# index-price-checker in Dafny

A model of the MPIBEST20 price checker. The script reads the index files
downloaded for the previous business day. For each RIC in a file it compares
the file's price with a price from a financial data service (Quandl or
AlphaVantage). It then writes a report of the differences.

The model covers three source files:

- **csv_data.py** (`csv_data.dfy`, module `CsvData`).
  - `CSVData` is a class whose fields `id`, `data`, `date` and `prices` are updated in place.
  - `load_csv` and `check_contents` are methods with loops.
  - `compare` is split into a pure decision (`Resolve`, `PriceColumnFor`, `CsvPrice`, `ApiPrice`) and a getter load (`LoadGetter`).
  - `generate_report` returns the report as a value.
- **financial_getters.py** (`financial_getters.dfy`, module `FinancialGetters`).
  - `QuandlData` and `AVData` are classes with the single-slot fields `data` and `loadedTicker`.
  - `AVData.LoadData` keeps the retry loop.
  - `__clean_keys` and the history comprehension are loops, proved against the functions `Cleaned` and `Rekeyed`.
- **check_data.py** (`check_data.dfy`, module `CheckData`).
  - The previous-business-day rule, the file filter, the load-then-check loop over the selected files, and the four ways a run ends (no file to analyze, an error before the script's `try`, an error it catches, or the report).

Supporting modules:

- `Wrappers`: `Option`, `Result`, `Outcome`, and the `Failure` constructors. Each stands for an exception the program can raise, except `Stalled`. `Stalled` stands for the AlphaVantage retry loop never ending.
- `Text`: Python's `in` on strings and `str.split`.
- `Digits`: digit strings.
- `Calendar`: `datetime` dates, `toordinal`, `weekday`, `timedelta`, and the `%Y%m%d` and `%Y-%m-%d` formats.
- `OrderedDicts`: Python's insertion-ordered `dict`.

A pandas DataFrame is a map from column label to (row label to cell). Python's `x in df` tests the column labels, and `df[c][r]` reads a cell.

Inputs the model takes as parameters:

- the rows of each file, as `csv.DictReader` yields them;
- Quandl's `get`;
- the sequence of attempts AlphaVantage's retry loop sees for each ticker;
- `float()`, as `toFloat`;
- today's date;
- the list of names the download returns.

### Behaviour the code has, modelled as written

- **Lookup key.** `quandl_tickers = ('IGLT')` is a string, not a tuple, so membership is a substring test. The full RIC is kept as the key only when the ticker is *not* a substring of "IGLT" *and* the suffix is not OQ or P (csv_data.py:71-72). Otherwise the key is the bare ticker. So `IGLT.L` is looked up as `IGLT`, a RIC ending in `.OQ` under its bare ticker, and a RIC ending in `.DE` under the whole RIC (`ResolveKey`, `QuandlRoute`).
- **Short tickers.** `IG.L` goes to Quandl under the key `IG` and fails for lack of a database (`ShortTickerGoesToQuandl`).
- **No getter reuse.** `compare` builds a new getter for every RIC (csv_data.py:73). So the `loaded_ticker != ticker` guard always holds, and nothing downloaded for one RIC serves another (`LoadGetter`).
- **Quandl prices.** Quandl's frame has field names as its columns and dates as its rows, and `self.date not in api.data` tests the columns. So every RIC served by Quandl is reported with an `NA` provider price (`QuandlNeverPriced`).
- **Zero prices.** The provider price is tested for truth (csv_data.py:106-107), so a zero price is reported as `NA` just like a missing one (`EntryOf`).
- **Endless retry.** AlphaVantage's retry loop (financial_getters.py:65-70) never surfaces a dropped connection, and never ends when every attempt is dropped. With a finite attempt sequence the model reports that case as `Stalled`.
- **Evaluation order.** In `float(self.data[RIC][column])` the row is looked up before the column is chosen. Without a loaded file or a row for the RIC, that error comes first, even when the format id is unknown (`CsvPriceLaw`).
- **First failure.** `check_contents` stops at the first RIC whose comparison raises; the entries of the RICs before it stay stored (`CheckFromFailure`). The script then prints that error and writes no report (`RunSpecOutcome`).
- **Shared table.** One `CSVData` serves every file, and `self.prices` is never cleared. A RIC in two files keeps the place it got in the first and the entry from the last (`RunFilesLookup`, `RunSpecLaw`).
- **Report names.** The report name is built from the unpadded year, month and day, so two dates can share a name (`ReportNamesCollide`).
- **Sunday runs.** A Sunday run targets the Saturday before (`TargetDateLaw`).
- **Getter prices.** `price` is modelled as `QuandlPrice` and `AVPrice` on the frame a getter holds. `compare` reads the price of the frame `LoadGetter` returns.

## Model

| member | source | states |
|---|---|---|
| CsvData.CSVData.constructor | csv_data.py:30-46 | a new checker has no format id, no rows, no date and an empty price table |
| CsvData.DatePrefix | csv_data.py:52 | the first eight characters of the name, or the whole name when it is shorter |
| CsvData.FileDate | csv_data.py:50-52 | a name whose prefix is not a date fails with that prefix |
| CsvData.FileDateLaw | csv_data.py:50-52 | a name starting with a rendered `YYYYMMDD` date yields that date; an accepted name's first eight characters are the date's rendering |
| CsvData.FormatId | csv_data.py:54 | Python's `[-7:-4]` slice: the three characters before the last four, clamped at the start for short names |
| CsvData.FormatIdOfName | csv_data.py:54 | a name `...<id>.csv` yields `<id>` |
| CsvData.RowsRead | csv_data.py:58-59 | the loop reads no more rows than there are |
| CsvData.RowsReadAt | csv_data.py:58-59 | the loop stops at the first row without a RIC column, or at the end |
| CsvData.RowsCovered | csv_data.py:58-59 | the loop never gets past a row without a RIC column |
| CsvData.LastRow | csv_data.py:58-60 | the reference: a row carrying the given non-empty RIC with no later row carrying it, or none when no row carries it |
| CsvData.IndexedLookup | csv_data.py:55-60 | the row index holds, under each non-empty RIC, the last row carrying it, and nothing under any other key |
| CsvData.IndexedExtend | csv_data.py:58-60 | one more row adds itself under its RIC when the RIC is non-empty, and changes nothing otherwise |
| CsvData.CSVData.IndexRows | csv_data.py:57-60 | the loop's index is that of the rows read before the first row lacking a RIC column; it fails exactly when there is such a row |
| CsvData.CSVData.LoadCsv | csv_data.py:48-60 | the new state and outcome are those of `LoadStep` |
| CsvData.LoadStepLaw | csv_data.py:48-60 | a load sets the date and format id and keeps earlier prices; it completes exactly when every row has a RIC column, and the index is then that of all the rows, mapping each RIC to its last row |
| CsvData.ResolveFailsIff | csv_data.py:70 | unpacking the split fails exactly when the RIC does not hold exactly one '.' |
| CsvData.CompareMalformed | csv_data.py:70 | such a RIC fails `compare` with MalformedRic before any getter is built |
| CsvData.ResolveKey | csv_data.py:71-72 | for `ticker.suffix` the key is the bare ticker when the suffix is OQ or P or the ticker is a substring of "IGLT", and the whole RIC otherwise |
| CsvData.QuandlRoute | csv_data.py:71-73 | Quandl is chosen exactly when the key is a substring of "IGLT"; the key is then the bare ticker |
| CsvData.ShortTickerGoesToQuandl | csv_data.py:71-73 | `IG.L` is routed to Quandl under `IG`, which has no Quandl database |
| CsvData.CSVData.LoadGetter | csv_data.py:73-77 | a fresh getter, whose guard always holds, ends with the frame `Load` gives or its error |
| CsvData.RowOf | csv_data.py:90 | `self.data[RIC]`: the RIC's row when a file is loaded and holds it; NotLoaded without a file, UnknownRic without a row |
| CsvData.PriceColumnFor | csv_data.py:81-88 | SNC: LOCAL PRICE for DE and INDEX PRICE otherwise; SNA: CURRENT PRICE; any other id fails (the unbound `column`) |
| CsvData.FloatOf | csv_data.py:90 | a number exactly when there is a cell and it parses, with the parsed value; otherwise NotANumber of the text |
| CsvData.CsvPriceLaw | csv_data.py:81-90 | the file's price exists exactly when the RIC has a row, the format is known, the row has the column, the cell is present and it parses, and it is the parsed cell; an unloaded file fails with NotLoaded and a missing row with UnknownRic before the format is consulted |
| CsvData.ApiPriceLaw | csv_data.py:91-95 | without a date the warning's `self.date.date()` raises (NotLoaded); with one, the provider price is absent when the date is not a column of the frame, given only when it is, and for AlphaVantage it is then the day's `close` field, parsed |
| CsvData.QuandlNeverPriced | csv_data.py:91-93 | for a Quandl frame and a date the provider price is always absent |
| CsvData.CompareOutcome | csv_data.py:64-97 | for a RIC that resolves, loads and has a numeric file cell, `compare` fails with NotLoaded when no date is loaded (the warning's `self.date.date()`), and otherwise returns the key and that number; the provider price is None when the date is not a column of the frame, and always for Quandl; for AlphaVantage it is the day's `close` as a number, and compare fails without one |
| CsvData.CSVData.Compare | csv_data.py:64-97 | returns `CompareSpec` and changes nothing |
| CsvData.EntryOf | csv_data.py:104-107 | the provider price and difference are NA exactly when the provider price is None or zero; otherwise they are the price and csv − api |
| CsvData.CheckFromPass | csv_data.py:102-103 | the loop over the RICs completes exactly when every comparison succeeds |
| CsvData.CheckFromFailure | csv_data.py:102-107 | a loop that stops fails with the error of the first failing comparison, every RIC before it compared successfully, and the table is the one the loop over those earlier RICs leaves |
| CsvData.CheckFromLookup | csv_data.py:102-107 | keys keep their places; after a complete loop each RIC holds its comparison's entry and other keys keep theirs |
| CsvData.CheckFromOrder | csv_data.py:102-107 | distinct RICs new to the table are appended in the order the loop visits them |
| CsvData.AppendedLaw | csv_data.py:102-107 | the reference key order keeps the old keys at the front and lists exactly the old keys and the stored RICs |
| CsvData.CheckFromKeys | csv_data.py:102-107 | a completed loop lists the table's keys in the reference order `Appended`, new RICs appended and repeated ones left in place |
| CsvData.CheckStepLaw | csv_data.py:99-107 | `check_contents` changes only the prices; earlier entries persist and every RIC of the file is overwritten by its new entry |
| CsvData.CheckStepKeys | csv_data.py:99-107 | a check, complete or not, keeps every key stored before it |
| CsvData.CSVData.CheckContents | csv_data.py:99-107 | the new prices and outcome are those of `CheckStep` |
| CsvData.ReportRows | csv_data.py:121-122 | the report has one row per stored entry, in insertion order |
| CsvData.ReportNamesCollide | csv_data.py:116 | 11 January and 1 November 2018 get the same report name |
| CsvData.ReportNameTwoDigits | csv_data.py:116 | with a four-digit year and a two-digit month and day, the name carries the `YYYYMMDD` date |
| CsvData.DecimalWidth | csv_data.py:116 | a number with exactly `w` digits prints the same with or without padding to `w` |
| CsvData.CSVData.GenerateReport | csv_data.py:109-122 | the report is `ReportOf(date, prices)`; it fails before any file is loaded |
| FinancialGetters.QuandlKey | financial_getters.py:49 | the key is `LSE/IGLT` for IGLT, and every other ticker fails |
| FinancialGetters.QuandlFrame | financial_getters.py:50 | every column of the frame is a named series of the table, holding that series' values under their dates |
| FinancialGetters.DateIndexed | financial_getters.py:50 | a series' dates become the row labels, each holding its value |
| FinancialGetters.QuandlFrameHasNoDateColumn | financial_getters.py:50 | no date is a column of a Quandl frame |
| FinancialGetters.QuandlPrice | financial_getters.py:53-57 | None with nothing loaded; otherwise the read succeeds exactly when the frame has a Price column holding the date, and returns that cell |
| FinancialGetters.QuandlData.constructor | financial_getters.py:32-33 | a new getter holds no data and no ticker |
| FinancialGetters.QuandlData.LoadData | financial_getters.py:46-51 | a successful load replaces the data and sets the ticker; a failing one changes neither |
| FinancialGetters.FirstDeliveredLaw | financial_getters.py:65-70 | the loop ends with the first answered attempt, and gives up only when every attempt was dropped |
| FinancialGetters.FirstDeliveredAfterDrops | financial_getters.py:65-70 | dropped attempts before the others do not change the answer used |
| FinancialGetters.AVLoadIgnoresDrops | financial_getters.py:65-70 | no dropped connection reaches the caller: the load is the same with any number of drops before it |
| FinancialGetters.CleanLabelFails | financial_getters.py:90 | a label fails to clean exactly when it has no '. ' |
| FinancialGetters.CleanNumberedLabel | financial_getters.py:90 | `'<digits>. <name>'` cleans to `<name>` |
| FinancialGetters.CleanedSticks | financial_getters.py:89-91 | once a label fails, later fields do not change the outcome |
| FinancialGetters.CleanedOkIff | financial_getters.py:85-92 | cleaning succeeds exactly when every label has a '. ' |
| FinancialGetters.CleanedLookup | financial_getters.py:85-92 | the cleaned map holds exactly the cleaned names, each with the value of the last field cleaning to it |
| FinancialGetters.AVData.CleanKeys | financial_getters.py:85-92 | the loop returns `Cleaned` |
| FinancialGetters.RekeyedSticks | financial_getters.py:74 | once a day fails, later days do not change the outcome |
| FinancialGetters.RekeyedStep | financial_getters.py:74 | the next day either raises, and that is the comprehension's outcome, or adds its date with its cleaned fields |
| FinancialGetters.RekeyedOkIff | financial_getters.py:73-74 | re-keying succeeds exactly when every date text parses and every day's labels clean |
| FinancialGetters.NoEarlierSameDate | financial_getters.py:73-74 | two days of one answer never read as the same date |
| FinancialGetters.RekeyedDay | financial_getters.py:74 | each day is found under its date, holding its cleaned fields |
| FinancialGetters.ParsedDatesIff | financial_getters.py:73-74 | a date is among the parsed dates exactly when some day's text reads as it |
| FinancialGetters.RekeyedDates | financial_getters.py:74 | the re-keyed history's dates are exactly the parsed dates |
| FinancialGetters.FreshDate | financial_getters.py:74 | a day's date is not among the dates of the days before it |
| FinancialGetters.RekeyedSize | financial_getters.py:74 | one date per day: no two days merge |
| FinancialGetters.AVData.Rekey | financial_getters.py:73-74 | the loop returns `Rekeyed` |
| FinancialGetters.NameIndexed | financial_getters.py:75 | a day's field names become row labels holding their values |
| FinancialGetters.FromDict | financial_getters.py:75 | the dates become the columns, each holding that day's fields |
| FinancialGetters.AVLoadDate | financial_getters.py:73-76 | after a load, a date is a column exactly when some day of the answer reads as it, and the column holds that day's cleaned fields |
| FinancialGetters.AVData.constructor | financial_getters.py:32-33 | a new getter holds no data and no ticker |
| FinancialGetters.AVData.LoadData | financial_getters.py:61-76 | a successful load replaces the data and sets the ticker; a failing one changes neither |
| FinancialGetters.AVPrice | financial_getters.py:78-83 | None with nothing loaded; otherwise the read succeeds exactly when the date is a column holding the field (`close`, or `adjusted close` when asked), returns that cell, and otherwise fails with MissingField |
| Calendar.PrevDay | check_data.py:26 | the day before is a valid date one day number earlier |
| Calendar.DaysBackOrdinal | check_data.py:26 | `timedelta(days=-k)` lands `k` day numbers earlier, and overflows exactly when that number is not positive |
| Calendar.DaysBackWeekday | check_data.py:25-26 | stepping back `k` days moves the weekday back `k` places |
| Calendar.ParseYmd | csv_data.py:50 | an accepted `%Y%m%d` text denotes a valid date |
| Calendar.ParseYmdInverse | csv_data.py:50 | an accepted `%Y%m%d` text is the rendering of its date |
| Calendar.ParseRenderYmd | check_data.py:27 | a rendered `%Y%m%d` date reads back as itself |
| Calendar.RenderYmd | check_data.py:27 | the rendering is eight digits |
| Calendar.ParseIso | financial_getters.py:73 | an accepted `%Y-%m-%d` text denotes a valid date |
| Calendar.ParseIsoInverse | financial_getters.py:73 | an accepted `%Y-%m-%d` text is the rendering of its date |
| Calendar.ParseRenderIso | financial_getters.py:73 | a rendered `%Y-%m-%d` date reads back as itself |
| Calendar.IsoKeysInjective | financial_getters.py:73-74 | two texts that read as the same date are the same text |
| Digits.Read2Digits | csv_data.py:50 | two characters are read exactly when they are digits, as their decimal value |
| Digits.Read4Digits | csv_data.py:50 | four characters are read exactly when they are digits, as their decimal value |
| Digits.Padded | check_data.py:27 | a zero-padded rendering has the width asked for and denotes the number |
| Digits.PaddedNatOf | check_data.py:27 | every digit string is the padded rendering of its value |
| Digits.Decimal | csv_data.py:116 | `'%s' % n` is a digit string with no leading zero that denotes `n` |
| Text.ContainsIff | csv_data.py:71 | `p in s` holds exactly when `p` occurs at some position of `s` |
| Text.SplitCharCount | csv_data.py:70 | splitting on one character gives one more part than there are occurrences of it |
| Text.JoinSplit | csv_data.py:70 | joining the parts of a split with its separator gives back the text |
| Text.SplitSeveralIff | financial_getters.py:90 | a split gives several parts exactly when the separator occurs |
| OrderedDicts.Put | csv_data.py:60 | assigning a key sets its value, keeps every other entry, and moves no key |
| OrderedDicts.PutAllLookup | csv_data.py:58-60 | after a run of assignments a key holds its last assigned value, and the old keys stay at the front |
| OrderedDicts.LastValue | csv_data.py:58-60 | the value of a key's last assignment, if there is one, and none otherwise |
| CheckData.Offset | check_data.py:25 | three days back on a Monday, one on any other day |
| CheckData.WeekdayBack | check_data.py:25 | from Monday the target is a Friday, otherwise the day before; the target is a business day unless today is Sunday |
| CheckData.TargetDateLaw | check_data.py:24-26 | the target date is three days earlier on a Monday and one day earlier otherwise; it is a business day unless today is Sunday; it overflows only at the start of the calendar |
| CheckData.Pattern | check_data.py:27 | the download pattern reads back as the target date |
| CheckData.IncludeIff | check_data.py:20-32 | a name is analyzed exactly when it contains SNA or CLS.SNC |
| CheckData.SelectedLaw | check_data.py:35 | the selection keeps exactly the analyzed names, each as often as downloaded |
| CheckData.SelectedAppend | check_data.py:35 | selection preserves order: selecting from a concatenation concatenates the selections |
| CheckData.RunFilesLast | check_data.py:41-43 | the loop, complete or not, keeps earlier keys; after it completes, the state holds the last file's date and format |
| CheckData.FileStepKeys | check_data.py:42-43 | one turn keeps earlier keys and, when it completes, leaves the loaded file's date and format |
| CheckData.FileStepLaw | check_data.py:42-43 | a completed turn grows the keys in the reference order and stores, for each RIC of the file, the entry of its comparison against that file, keeping every other entry |
| CheckData.FilesKeysLaw | check_data.py:41-43 | the reference key order over several files keeps the old keys at the front and lists exactly the old keys and the RICs of the files |
| CheckData.LastHolderExists | check_data.py:41-43 | a file holding a RIC is followed by a last file holding it |
| CheckData.RunFilesLookup | check_data.py:41-43 | after a completed loop the keys follow the reference order file by file; a RIC takes the entry of its comparison in the last file that has it, and a RIC no file has keeps its entry |
| CheckData.RowsFromLookups | csv_data.py:121-122 | a table holding those keys and entries has as report rows one per RIC, in first-met order, each the entry from the last file that has the RIC |
| CheckData.RunFilesRows | check_data.py:40-45 | after a completed loop from a fresh object the table's rows are exactly those: distinct RICs in first-met order, each with the entry from the last file that has it |
| CheckData.RunSpecLaw | check_data.py:39-48 | an empty selection ends with no data for the pattern; a report is named after the date of the last analyzed file, which was downloaded and passed the filter, and has one row per RIC of the analyzed files, in first-met order, each the entry of the RIC's comparison in the last file that has it |
| CheckData.CheckPassIff | csv_data.py:102-103 | the loop over a file's RICs completes exactly when every RIC of the file compares |
| CheckData.FileStepPass | check_data.py:42-43 | one turn completes exactly when the file has a date in its name, a RIC column in every row, and RICs that all compare |
| CheckData.RunFilesPass | check_data.py:41-43 | the loop over the files completes exactly when every file is such a file |
| CheckData.RunSpecOutcome | check_data.py:39-50 | with files to analyze, the report is written exactly when the loop completes; a loop that stops ends the run with its error and no report |
| CheckData.RunSpecReports | check_data.py:39-50 | with files to analyze, the report is written exactly when every selected file loads and every RIC in it compares |
| CheckData.Run | check_data.py:24-48 | the run ends as `RunSpec` says |

## Left out

- `send_email` (csv_data.py:127-149) is left out: it is SMTP with credentials, and `generate_report` only calls it.
- Opening and writing files is left out. `load_csv` takes the rows `csv.DictReader` would yield. `generate_report` returns the report's name, header and rows instead of writing them.
- snetwork.py is not part of this model. The list of downloaded names is an input of `CheckData.Run`.
- `datetime.today()`, `time.time()`, every `print`, the AlphaVantage key and the passwords are left out. Today's date is an input.
- `float()` is the input `toFloat`. Prices are exact reals, so IEEE rounding and NaN are not modelled.
- `strptime` accepts only the fixed-width, zero-padded forms. Python also accepts forms such as `2018-2-8`; those are read as failures here.
- Only the DataFrame labels and cells the program touches are modelled. `from_dict` fills a day that lacks a field with NaN; here that cell is absent, and `AVPrice` fails with MissingField.
- `DictReader` stores the cells of an over-long row under the key `None`. The model's rows have string keys only.
- FinancialGetters.AVData.LoadData: every fresh `AVData` for the same ticker sees the same attempts (`avAttempts` depends on the ticker only). When the finite attempt sequence is all dropped, the result is `Stalled`; the source loops forever instead.
- FinancialGetters.AVLoadDate: requires the days of an AlphaVantage answer to have distinct date texts, as the keys of a JSON object do.
- The getters' abstract base class `DataGetter` is not a type of its own. `QuandlData` and `AVData` are two classes with the same fields.
- Exceptions are `Failure` values. The model distinguishes one escaping before the script's `try` (`Crashed`) from one it catches and prints (`Aborted`), but not Python's exception classes.

=== FILE: calendar.dfy ===
/** Calendar dates as Python's `datetime` sees them: the proleptic Gregorian
    calendar from 0001-01-01 to 9999-12-31, day numbers (`toordinal`),
    weekdays, stepping back by whole days (`+ timedelta(days=-k)`), and the
    two text forms the program reads and writes: `%Y%m%d` and `%Y-%m-%d`. */
module Calendar {
  import opened Wrappers
  import opened Digits

  datatype Date = Date(year: int, month: int, day: int)

  const First := Date(1, 1, 1)

  predicate IsLeapYear(y: int) { y % 4 == 0 && (y % 100 != 0 || y % 400 == 0) }

  function DaysInMonth(y: int, m: int): int
    requires 1 <= m <= 12
  {
    if m == 2 then (if IsLeapYear(y) then 29 else 28)
    else if m == 4 || m == 6 || m == 9 || m == 11 then 30
    else 31
  }

  predicate Valid(d: Date)
  {
    1 <= d.year <= 9999 && 1 <= d.month <= 12 && 1 <= d.day <= DaysInMonth(d.year, d.month)
  }

  /** A date `datetime` can hold. */
  type ValidDate = d: Date | Valid(d) witness Date(1, 1, 1)

  function DaysInYear(y: int): int { if IsLeapYear(y) then 366 else 365 }

  function DaysBeforeYear(y: int): nat
    requires y >= 1
  {
    if y == 1 then 0 else DaysBeforeYear(y - 1) + DaysInYear(y - 1)
  }

  /** Days of year `y` before the first of month `m` (Python's `_days_before_month`). */
  function DaysBeforeMonth(y: int, m: int): nat
    requires 1 <= m <= 12
  {
    var common :=
      if m == 1 then 0 else if m == 2 then 31 else if m == 3 then 59
      else if m == 4 then 90 else if m == 5 then 120 else if m == 6 then 151
      else if m == 7 then 181 else if m == 8 then 212 else if m == 9 then 243
      else if m == 10 then 273 else if m == 11 then 304 else 334;
    if m > 2 && IsLeapYear(y) then common + 1 else common
  }

  /** The day number of `d`, 0001-01-01 being day 1 (Python's `toordinal`). */
  function Ordinal(d: Date): int
    requires Valid(d)
  {
    DaysBeforeYear(d.year) + DaysBeforeMonth(d.year, d.month) + d.day
  }

  /** Monday is 0 and Sunday is 6 (Python's `weekday`). */
  function Weekday(d: Date): int
    requires Valid(d)
  {
    (Ordinal(d) + 6) % 7
  }

  /** The calendar day before `d`. */
  function PrevDay(d: Date): (p: Date)
    requires Valid(d) && d != First
    ensures Valid(p) && Ordinal(p) == Ordinal(d) - 1
  {
    if d.day > 1 then Date(d.year, d.month, d.day - 1)
    else if d.month > 1 then Date(d.year, d.month - 1, DaysInMonth(d.year, d.month - 1))
    else Date(d.year - 1, 12, 31)
  }

  /** `d + timedelta(days=-k)`: None where Python raises OverflowError (before 0001-01-01). */
  function DaysBack(d: Date, k: nat): (r: Option<Date>)
    requires Valid(d)
    ensures r.Some? ==> Valid(r.value)
    decreases k
  {
    if k == 0 then Some(d)
    else if d == First then None
    else DaysBack(PrevDay(d), k - 1)
  }

  /** Stepping back `k` days lands on the date whose day number is `k`
      smaller; it fails exactly when that day number would not be positive. */
  lemma {:induction false} DaysBackOrdinal(d: Date, k: nat)
    requires Valid(d)
    ensures DaysBack(d, k).None? <==> Ordinal(d) <= k
    ensures DaysBack(d, k).Some? ==> Ordinal(DaysBack(d, k).value) == Ordinal(d) - k
    decreases k
  {
    if k > 0 && d != First {
      DaysBackOrdinal(PrevDay(d), k - 1);
    }
  }

  /** Stepping back `k` days moves the weekday back `k` places. */
  lemma DaysBackWeekday(d: Date, k: nat)
    requires Valid(d) && DaysBack(d, k).Some?
    ensures Weekday(DaysBack(d, k).value) == (Weekday(d) - k) % 7
  {
    DaysBackOrdinal(d, k);
    ShiftMod7(Ordinal(d) + 6, k);
  }

  lemma ShiftMod7(a: int, k: int)
    ensures (a % 7 - k) % 7 == (a - k) % 7
  {
    var q := a / 7;
    assert a == 7 * q + a % 7;
    assert a - k == 7 * q + (a % 7 - k);
  }

  /** `strftime("%Y%m%d")`. */
  function RenderYmd(d: Date): (s: string)
    requires Valid(d)
    ensures |s| == 8 && AllDigits(s)
  {
    Padded(d.year, 4) + Padded(d.month, 2) + Padded(d.day, 2)
  }

  /** `strptime(s, "%Y%m%d")` on eight digits: None where Python raises ValueError. */
  function ParseYmd(s: string): (r: Option<Date>)
    ensures r.Some? ==> Valid(r.value)
  {
    if |s| != 8 then None
    else match (Read4(s, 0), Read2(s, 4), Read2(s, 6))
      case (Some(y), Some(m), Some(d)) => if Valid(Date(y, m, d)) then Some(Date(y, m, d)) else None
      case _ => None
  }

  /** Four digits read by `Read4` are the zero-padded rendering of their value. */
  lemma Read4Padded(s: string, i: nat)
    requires i + 4 <= |s| && Read4(s, i).Some?
    ensures Padded(Read4(s, i).value, 4) == s[i..i + 4]
  {
    Read4Digits(s, i);
    PaddedNatOf(s[i..i + 4]);
  }

  /** Two digits read by `Read2` are the zero-padded rendering of their value. */
  lemma Read2Padded(s: string, i: nat)
    requires i + 2 <= |s| && Read2(s, i).Some?
    ensures Padded(Read2(s, i).value, 2) == s[i..i + 2]
  {
    Read2Digits(s, i);
    PaddedNatOf(s[i..i + 2]);
  }

  /** A text that reads as a date is that date's rendering: `%Y%m%d` readings are one to one. */
  lemma ParseYmdInverse(s: string)
    requires ParseYmd(s).Some?
    ensures RenderYmd(ParseYmd(s).value) == s
  {
    var d := ParseYmd(s).value;
    assert |s| == 8;
    assert Read4(s, 0) == Some(d.year) && Read2(s, 4) == Some(d.month) && Read2(s, 6) == Some(d.day);
    Read4Padded(s, 0);
    Read2Padded(s, 4);
    Read2Padded(s, 6);
    YmdPieces(s);
  }

  lemma YmdPieces(s: string)
    requires |s| == 8
    ensures s == s[0..4] + s[4..6] + s[6..8]
  {
  }

  lemma IsoPieces(s: string)
    requires |s| == 10 && s[4] == '-' && s[7] == '-'
    ensures s == s[0..4] + "-" + s[5..7] + "-" + s[8..10]
  {
  }

  /** Reading back a rendered date gives the date again. */
  lemma ParseRenderYmd(d: Date)
    requires Valid(d)
    ensures ParseYmd(RenderYmd(d)) == Some(d)
  {
    var s := RenderYmd(d);
    assert Read4(s, 0) == Some(d.year) by {
      assert s[0..4] == Padded(d.year, 4);
      Read4Digits(s, 0);
    }
    assert Read2(s, 4) == Some(d.month) by {
      assert s[4..6] == Padded(d.month, 2);
      Read2Digits(s, 4);
    }
    assert Read2(s, 6) == Some(d.day) by {
      assert s[6..8] == Padded(d.day, 2);
      Read2Digits(s, 6);
    }
  }

  /** `strftime("%Y-%m-%d")`; the program never writes this form, it is the
      inverse that makes `ParseIso` injective. */
  function RenderIso(d: Date): (s: string)
    requires Valid(d)
  {
    Padded(d.year, 4) + "-" + Padded(d.month, 2) + "-" + Padded(d.day, 2)
  }

  /** `strptime(s, "%Y-%m-%d")`: None where Python raises ValueError. */
  function ParseIso(s: string): (r: Option<Date>)
    ensures r.Some? ==> Valid(r.value)
  {
    if |s| != 10 || s[4] != '-' || s[7] != '-' then None
    else match (Read4(s, 0), Read2(s, 5), Read2(s, 8))
      case (Some(y), Some(m), Some(d)) => if Valid(Date(y, m, d)) then Some(Date(y, m, d)) else None
      case _ => None
  }

  lemma ParseIsoInverse(s: string)
    requires ParseIso(s).Some?
    ensures RenderIso(ParseIso(s).value) == s
  {
    var d := ParseIso(s).value;
    assert |s| == 10 && s[4] == '-' && s[7] == '-';
    assert Read4(s, 0) == Some(d.year) && Read2(s, 5) == Some(d.month) && Read2(s, 8) == Some(d.day);
    Read4Padded(s, 0);
    Read2Padded(s, 5);
    Read2Padded(s, 8);
    IsoPieces(s);
  }

  lemma ParseRenderIso(d: Date)
    requires Valid(d)
    ensures ParseIso(RenderIso(d)) == Some(d)
  {
    var s := RenderIso(d);
    assert Read4(s, 0) == Some(d.year) by {
      assert s[0..4] == Padded(d.year, 4);
      Read4Digits(s, 0);
    }
    assert Read2(s, 5) == Some(d.month) by {
      assert s[5..7] == Padded(d.month, 2);
      Read2Digits(s, 5);
    }
    assert Read2(s, 8) == Some(d.day) by {
      assert s[8..10] == Padded(d.day, 2);
      Read2Digits(s, 8);
    }
  }

  /** Two history keys that read as the same date are the same key. */
  lemma IsoKeysInjective(a: string, b: string)
    requires ParseIso(a).Some? && ParseIso(a) == ParseIso(b)
    ensures a == b
  {
    ParseIsoInverse(a);
    ParseIsoInverse(b);
  }
}

=== FILE: check_data.dfy ===
/** The script check_data.py: pick the previous business day, download that
    day's index files, keep the ones to analyze, load and check each in turn
    with one `CSVData`, and write the report.

    The clock, the download and the file contents are inputs: `today` is the
    date `datetime.today()` gives, `download` is what `get_files` returns for
    a date pattern, and `rowsOf` gives the rows of a downloaded file. */
module CheckData {
  import opened Wrappers
  import opened Text
  import opened Calendar
  import opened OrderedDicts
  import opened CsvData

  /** `files_to_analyze` */
  const FilesToAnalyze: seq<string> := ["SNA", "CLS.SNC"]

  /** How many days back the previous business day lies: three on a Monday,
      one on any other day. */
  function Offset(weekday: int): (k: nat)
    ensures k == 3 <==> weekday == 0
    ensures k == 1 <==> weekday != 0
  {
    if weekday == 0 then 3 else 1
  }

  /** `dt + timedelta(days=offset)`; None where Python raises OverflowError. */
  function TargetDate(today: ValidDate): Option<ValidDate>
  {
    match DaysBack(today, Offset(Weekday(today)))
    case None => None
    case Some(d) => Some(d)
  }

  /** Run on a Monday the script looks at the Friday before, on any other day
      at the day before: Tuesday to Saturday give a business day, Sunday gives
      Saturday. Only the first days of the calendar have no such date. */
  lemma TargetDateLaw(today: ValidDate)
    ensures TargetDate(today).None? <==> Ordinal(today) <= Offset(Weekday(today))
    ensures TargetDate(today).Some? ==>
              var target := TargetDate(today).value;
              && Ordinal(target) == Ordinal(today) - Offset(Weekday(today))
              && (Weekday(today) == 0 ==> Weekday(target) == 4)
              && (Weekday(today) != 0 ==> Weekday(target) == Weekday(today) - 1)
              && (Weekday(today) != 6 <==> Weekday(target) <= 4)
  {
    var w := Weekday(today);
    DaysBackOrdinal(today, Offset(w));
    if TargetDate(today).Some? {
      DaysBackWeekday(today, Offset(w));
      WeekdayBack(w, Weekday(TargetDate(today).value));
    }
  }

  lemma WeekdayBack(w: int, t: int)
    requires 0 <= w < 7 && t == (w - Offset(w)) % 7
    ensures w == 0 ==> t == 4
    ensures w != 0 ==> t == w - 1
    ensures w != 6 <==> t <= 4
  {
  }

  /** `prev_date.strftime("%Y%m%d")`, which names the files to download; it
      reads back as the target date. */
  function Pattern(target: ValidDate): (p: string)
    ensures ParseYmd(p) == Some(target)
  {
    ParseRenderYmd(target);
    RenderYmd(target)
  }

  /** `include(filename)`: one of the patterns occurs in the name. */
  predicate Include(name: string)
  {
    exists i | 0 <= i < |FilesToAnalyze| :: Contains(name, FilesToAnalyze[i])
  }

  /** A name is analyzed exactly when it contains "SNA" or "CLS.SNC". */
  lemma IncludeIff(name: string)
    ensures Include(name) <==> Contains(name, "SNA") || Contains(name, "CLS.SNC")
  {
    if Contains(name, "SNA") {
      assert Contains(name, FilesToAnalyze[0]);
    }
    if Contains(name, "CLS.SNC") {
      assert Contains(name, FilesToAnalyze[1]);
    }
  }

  /** `[file for file in downloaded_files if include(file)]` */
  function Selected(names: seq<string>): seq<string>
  {
    if names == [] then []
    else (if Include(names[0]) then [names[0]] else []) + Selected(names[1..])
  }

  /** The selection keeps exactly the included names, and keeps each as
      often as it was downloaded. */
  lemma {:induction false} SelectedLaw(names: seq<string>, name: string)
    ensures name in Selected(names) <==> name in names && Include(name)
    ensures multiset(Selected(names))[name] == if Include(name) then multiset(names)[name] else 0
    decreases |names|
  {
    if names != [] {
      SelectedLaw(names[1..], name);
      assert names == [names[0]] + names[1..];
    }
  }

  /** Selecting from two lists one after the other selects from their
      concatenation, in order. */
  lemma {:induction false} SelectedAppend(a: seq<string>, b: seq<string>)
    ensures Selected(a + b) == Selected(a) + Selected(b)
    decreases |a|
  {
    if a != [] {
      SelectedAppend(a[1..], b);
      assert (a + b)[1..] == a[1..] + b;
    } else {
      assert a + b == b;
    }
  }

  /** The state of a fresh `CSVData()`. */
  function Initial(): Snapshot
  {
    Snapshot(None, None, None, Empty())
  }

  /** One turn of the loop: `cs.load_csv(filename)`, then, if it raised
      nothing, `cs.check_contents()`. */
  function FileStep(s: Snapshot, name: string, rowsOf: string -> seq<Row>, src: Sources): (Snapshot, Outcome)
  {
    var (loaded, loadOutcome) := LoadStep(s, name, rowsOf(name));
    if loadOutcome.Fail? then (loaded, loadOutcome) else CheckStep(loaded, src)
  }

  /** The loop `for filename in filenames: cs.load_csv(...); cs.check_contents()`
      from state `s`: the first failure ends it. */
  function RunFiles(s: Snapshot, names: seq<string>, rowsOf: string -> seq<Row>, src: Sources)
    : (Snapshot, Outcome)
    decreases |names|
  {
    if names == [] then (s, Pass)
    else
      var (next, outcome) := FileStep(s, names[0], rowsOf, src);
      if outcome.Fail? then (next, outcome) else RunFiles(next, names[1..], rowsOf, src)
  }

  /** A completed loop over at least one file leaves the state of the last
      file loaded (its date and format) and keeps every entry stored before. */
  lemma {:induction false} RunFilesLast(s: Snapshot, names: seq<string>, rowsOf: string -> seq<Row>, src: Sources)
    ensures s.prices.keys <= RunFiles(s, names, rowsOf, src).0.prices.keys
    ensures names != [] && RunFiles(s, names, rowsOf, src).1 == Pass ==>
              var last := names[|names| - 1];
              var after := RunFiles(s, names, rowsOf, src).0;
              && FileDate(last).Ok?
              && after.date == Some(FileDate(last).value)
              && after.id == Some(FormatId(last))
    decreases |names|
  {
    if names != [] {
      var (next, outcome) := FileStep(s, names[0], rowsOf, src);
      FileStepKeys(s, names[0], rowsOf, src);
      if outcome == Pass {
        RunFilesUnfold(s, names, rowsOf, src);
        RunFilesLast(next, names[1..], rowsOf, src);
        if |names| > 1 {
          assert names[1..][|names| - 2] == names[|names| - 1];
        }
      }
    }
  }

  /** A turn, complete or not, keeps every key stored before it; a complete
      one leaves the date and the format of the file it loaded. */
  lemma FileStepKeys(s: Snapshot, name: string, rowsOf: string -> seq<Row>, src: Sources)
    ensures s.prices.keys <= FileStep(s, name, rowsOf, src).0.prices.keys
    ensures FileStep(s, name, rowsOf, src).1 == Pass ==>
              && FileDate(name).Ok?
              && FileStep(s, name, rowsOf, src).0.date == Some(FileDate(name).value)
              && FileStep(s, name, rowsOf, src).0.id == Some(FormatId(name))
  {
    var loaded := LoadStep(s, name, rowsOf(name)).0;
    CheckStepKeys(loaded, src);
  }

  /** File `name` has a row for `ric`. */
  predicate InFile(rowsOf: string -> seq<Row>, name: string, ric: string)
  {
    ric in Indexed(rowsOf(name)).items
  }

  /** `names[i]` is the last of the files with a row for `ric`. */
  predicate LastHolder(names: seq<string>, rowsOf: string -> seq<Row>, ric: string, i: int)
  {
    && 0 <= i < |names|
    && InFile(rowsOf, names[i], ric)
    && forall j | i < j < |names| :: !InFile(rowsOf, names[j], ric)
  }

  /** `compare(ric)` with file `name` loaded cleanly, on the sources `src`. */
  function FileCompare(name: string, rowsOf: string -> seq<Row>, src: Sources, ric: string): Result<Comparison>
  {
    match FileDate(name)
    case Err(e) => Err(e)
    case Ok(d) => CompareSpec(ric, Some(FormatId(name)), Some(Indexed(rowsOf(name))), Some(d), src)
  }

  /** The keys of the table after the files are checked in turn, starting from
      `keys`: each file's RICs in the file's order, new ones appended. */
  function FilesKeys(keys: seq<string>, names: seq<string>, rowsOf: string -> seq<Row>): seq<string>
    decreases |names|
  {
    if names == [] then keys
    else FilesKeys(Appended(keys, Indexed(rowsOf(names[0])).keys), names[1..], rowsOf)
  }

  /** The keys listed before stay at the front, and a RIC is listed exactly
      when it was listed before or some file has a row for it. */
  lemma {:induction false} FilesKeysLaw(keys: seq<string>, names: seq<string>, rowsOf: string -> seq<Row>, x: string)
    ensures keys <= FilesKeys(keys, names, rowsOf)
    ensures x in FilesKeys(keys, names, rowsOf) <==>
              x in keys || exists i | 0 <= i < |names| :: InFile(rowsOf, names[i], x)
    decreases |names|
  {
    if names != [] {
      var file := Indexed(rowsOf(names[0]));
      AppendedLaw(keys, file.keys, x);
      FilesKeysLaw(Appended(keys, file.keys), names[1..], rowsOf, x);
      if exists i | 0 <= i < |names| :: InFile(rowsOf, names[i], x) {
        var i :| 0 <= i < |names| && InFile(rowsOf, names[i], x);
        if i > 0 {
          assert InFile(rowsOf, names[1..][i - 1], x);
        }
      }
      if exists i | 0 <= i < |names[1..]| :: InFile(rowsOf, names[1..][i], x) {
        var i :| 0 <= i < |names[1..]| && InFile(rowsOf, names[1..][i], x);
        assert InFile(rowsOf, names[i + 1], x);
      }
    }
  }

  /** A completed turn for file `name`: the table's keys grow as `Appended`
      says, and a RIC of the file now holds the entry of its comparison
      while any other keeps its entry. */
  lemma FileStepLaw(s: Snapshot, name: string, rowsOf: string -> seq<Row>, src: Sources, ric: string)
    requires FileStep(s, name, rowsOf, src).1 == Pass
    ensures var after := FileStep(s, name, rowsOf, src).0;
            && after.prices.keys == Appended(s.prices.keys, Indexed(rowsOf(name)).keys)
            && (InFile(rowsOf, name, ric) ==>
                  && FileCompare(name, rowsOf, src, ric).Ok?
                  && Lookup(after.prices, ric) == Some(EntryOf(FileCompare(name, rowsOf, src, ric).value)))
            && (!InFile(rowsOf, name, ric) ==> Lookup(after.prices, ric) == Lookup(s.prices, ric))
  {
    var loaded := LoadStep(s, name, rowsOf(name)).0;
    LoadStepLaw(s, name, rowsOf(name), ric);
    assert loaded.data == Some(Indexed(rowsOf(name)));
    CheckStepLaw(loaded, src, ric);
    CheckFromKeys(loaded.prices, loaded.data.value.keys, Comparer(loaded.id, loaded.data, loaded.date, src));
  }

  /** A completed loop completed its first turn, and after a completed turn
      the loop goes on from the state that turn left. */
  lemma RunFilesUnfold(s: Snapshot, names: seq<string>, rowsOf: string -> seq<Row>, src: Sources)
    requires names != []
    ensures RunFiles(s, names, rowsOf, src).1 == Pass ==> FileStep(s, names[0], rowsOf, src).1 == Pass
    ensures FileStep(s, names[0], rowsOf, src).1 == Pass ==>
              RunFiles(s, names, rowsOf, src) == RunFiles(FileStep(s, names[0], rowsOf, src).0, names[1..], rowsOf, src)
  {
  }

  /** Where the files holding `ric` lie once the first file is set apart. */
  lemma TailHolders(names: seq<string>, rowsOf: string -> seq<Row>, ric: string)
    requires names != []
    ensures (forall i | 0 <= i < |names| :: !InFile(rowsOf, names[i], ric)) ==>
              && !InFile(rowsOf, names[0], ric)
              && forall j | 0 <= j < |names[1..]| :: !InFile(rowsOf, names[1..][j], ric)
    ensures LastHolder(names, rowsOf, ric, 0) ==>
              forall j | 0 <= j < |names[1..]| :: !InFile(rowsOf, names[1..][j], ric)
    ensures forall i | 0 < i && LastHolder(names, rowsOf, ric, i) :: LastHolder(names[1..], rowsOf, ric, i - 1)
  {
    var rest := names[1..];
    if LastHolder(names, rowsOf, ric, 0) || forall i | 0 <= i < |names| :: !InFile(rowsOf, names[i], ric) {
      forall j | 0 <= j < |rest|
        ensures !InFile(rowsOf, rest[j], ric)
      {
        assert rest[j] == names[j + 1];
      }
    }
    forall i | 0 < i && LastHolder(names, rowsOf, ric, i)
      ensures LastHolder(rest, rowsOf, ric, i - 1)
    {
      forall j | i - 1 < j < |rest|
        ensures !InFile(rowsOf, rest[j], ric)
      {
        assert rest[j] == names[j + 1];
      }
    }
  }

  /** A completed loop lists the table's keys file by file, and stores for
      each RIC the entry of its comparison in the last file with a row for
      it; a RIC no file has keeps its entry. */
  lemma {:induction false} RunFilesLookup(s: Snapshot, names: seq<string>, rowsOf: string -> seq<Row>,
                                          src: Sources, ric: string)
    requires RunFiles(s, names, rowsOf, src).1 == Pass
    ensures var after := RunFiles(s, names, rowsOf, src).0;
            && after.prices.keys == FilesKeys(s.prices.keys, names, rowsOf)
            && ((forall i | 0 <= i < |names| :: !InFile(rowsOf, names[i], ric)) ==>
                  Lookup(after.prices, ric) == Lookup(s.prices, ric))
            && (forall i | LastHolder(names, rowsOf, ric, i) ::
                  && FileCompare(names[i], rowsOf, src, ric).Ok?
                  && Lookup(after.prices, ric) == Some(EntryOf(FileCompare(names[i], rowsOf, src, ric).value)))
    decreases |names|
  {
    if names != [] {
      RunFilesUnfold(s, names, rowsOf, src);
      FileStepLaw(s, names[0], rowsOf, src, ric);
      RunFilesLookup(FileStep(s, names[0], rowsOf, src).0, names[1..], rowsOf, src, ric);
      TailHolders(names, rowsOf, ric);
    }
  }

  /** A file with a row for `ric` is followed by a last such file. */
  lemma {:induction false} LastHolderExists(names: seq<string>, rowsOf: string -> seq<Row>, ric: string, i: int)
    requires 0 <= i < |names| && InFile(rowsOf, names[i], ric)
    ensures exists j :: i <= j && LastHolder(names, rowsOf, ric, j)
    decreases |names| - i
  {
    if !LastHolder(names, rowsOf, ric, i) {
      var j :| i < j < |names| && InFile(rowsOf, names[j], ric);
      LastHolderExists(names, rowsOf, ric, j);
    }
  }

  /** `rows` are the rows a report on the files `names` should have: one per
      RIC of the files, in the order the RICs were first met, each the entry
      of the RIC's comparison in the last file that has a row for it. */
  ghost predicate FilesRows(rows: seq<Entry>, names: seq<string>, rowsOf: string -> seq<Row>, src: Sources)
  {
    var keys := FilesKeys([], names, rowsOf);
    && (forall a, b | 0 <= a < b < |keys| :: keys[a] != keys[b])
    && |rows| == |keys|
    && forall k | 0 <= k < |keys| ::
         exists i | LastHolder(names, rowsOf, keys[k], i) ::
           && FileCompare(names[i], rowsOf, src, keys[k]).Ok?
           && rows[k] == EntryOf(FileCompare(names[i], rowsOf, src, keys[k]).value)
  }

  /** After a completed loop from a fresh object the table's rows are the
      ones `FilesRows` describes. */
  lemma RunFilesRows(names: seq<string>, rowsOf: string -> seq<Row>, src: Sources)
    requires RunFiles(Initial(), names, rowsOf, src).1 == Pass
    ensures FilesRows(RowsOf(RunFiles(Initial(), names, rowsOf, src).0.prices), names, rowsOf, src)
  {
    var prices := RunFiles(Initial(), names, rowsOf, src).0.prices;
    RunFilesLookup(Initial(), names, rowsOf, src, "");
    forall ric: string, i | LastHolder(names, rowsOf, ric, i)
      ensures FileCompare(names[i], rowsOf, src, ric).Ok?
      ensures Lookup(prices, ric) == Some(EntryOf(FileCompare(names[i], rowsOf, src, ric).value))
    {
      RunFilesLookup(Initial(), names, rowsOf, src, ric);
    }
    assert prices.keys == FilesKeys([], names, rowsOf);
    RowsFromLookups(prices, names, rowsOf, src);
  }

  /** A table listing the keys of the files, each holding the entry of the
      last file with a row for it, has the rows `FilesRows` describes. */
  lemma RowsFromLookups(prices: OrderedDict<string, Entry>, names: seq<string>, rowsOf: string -> seq<Row>, src: Sources)
    requires prices.keys == FilesKeys([], names, rowsOf)
    requires forall ric, i | LastHolder(names, rowsOf, ric, i) ::
               && FileCompare(names[i], rowsOf, src, ric).Ok?
               && Lookup(prices, ric) == Some(EntryOf(FileCompare(names[i], rowsOf, src, ric).value))
    ensures FilesRows(RowsOf(prices), names, rowsOf, src)
  {
    forall k | 0 <= k < |prices.keys|
      ensures exists i | LastHolder(names, rowsOf, prices.keys[k], i) ::
                && FileCompare(names[i], rowsOf, src, prices.keys[k]).Ok?
                && RowsOf(prices)[k] == EntryOf(FileCompare(names[i], rowsOf, src, prices.keys[k]).value)
    {
      var ric := prices.keys[k];
      FilesKeysLaw([], names, rowsOf, ric);
      var h :| 0 <= h < |names| && InFile(rowsOf, names[h], ric);
      LastHolderExists(names, rowsOf, ric, h);
      var i :| h <= i && LastHolder(names, rowsOf, ric, i);
      RowAt(prices, k);
    }
  }

  /** File `name` goes through a turn of the loop: its name carries a date,
      every row has a RIC column, and every RIC of the file compares. */
  predicate FileOk(name: string, rowsOf: string -> seq<Row>, src: Sources)
  {
    && FileDate(name).Ok?
    && (forall i | 0 <= i < |rowsOf(name)| :: "RIC" in rowsOf(name)[i])
    && forall ric | ric in Indexed(rowsOf(name)).items :: FileCompare(name, rowsOf, src, ric).Ok?
  }

  /** The loop over a file's RICs completes exactly when each of them compares. */
  lemma CheckPassIff(prices: OrderedDict<string, Entry>, file: OrderedDict<string, Row>,
                     compare: string -> Result<Comparison>)
    ensures CheckFrom(prices, file.keys, compare).1 == Pass <==> forall ric | ric in file.items :: compare(ric).Ok?
  {
    CheckFromPass(prices, file.keys, compare);
    if forall i | 0 <= i < |file.keys| :: compare(file.keys[i]).Ok? {
      forall ric | ric in file.items
        ensures compare(ric).Ok?
      {
        var i :| 0 <= i < |file.keys| && file.keys[i] == ric;
      }
    }
  }

  /** A turn completes exactly when its file is `FileOk`, whatever the state. */
  lemma FileStepPass(s: Snapshot, name: string, rowsOf: string -> seq<Row>, src: Sources)
    ensures FileStep(s, name, rowsOf, src).1 == Pass <==> FileOk(name, rowsOf, src)
  {
    var rows := rowsOf(name);
    if FileDate(name).Ok? {
      var loaded := LoadStep(s, name, rows).0;
      LoadStepLaw(s, name, rows, "");
      if LoadStep(s, name, rows).1 == Pass {
        var compare := Comparer(loaded.id, loaded.data, loaded.date, src);
        CheckPassIff(loaded.prices, Indexed(rows), compare);
        forall ric
          ensures compare(ric) == FileCompare(name, rowsOf, src, ric)
        {
        }
      }
    }
  }

  /** The loop completes exactly when every file is `FileOk`. */
  lemma {:induction false} RunFilesPass(s: Snapshot, names: seq<string>, rowsOf: string -> seq<Row>, src: Sources)
    ensures RunFiles(s, names, rowsOf, src).1 == Pass <==> forall i | 0 <= i < |names| :: FileOk(names[i], rowsOf, src)
    decreases |names|
  {
    if names != [] {
      var rest := names[1..];
      FileStepPass(s, names[0], rowsOf, src);
      RunFilesUnfold(s, names, rowsOf, src);
      if FileStep(s, names[0], rowsOf, src).1 == Pass {
        RunFilesPass(FileStep(s, names[0], rowsOf, src).0, rest, rowsOf, src);
        if forall j | 0 <= j < |rest| :: FileOk(rest[j], rowsOf, src) {
          forall i | 0 < i < |names|
            ensures FileOk(names[i], rowsOf, src)
          {
            assert names[i] == rest[i - 1];
          }
        }
        if forall i | 0 <= i < |names| :: FileOk(names[i], rowsOf, src) {
          forall j | 0 <= j < |rest|
            ensures FileOk(rest[j], rowsOf, src)
          {
            assert rest[j] == names[j + 1];
          }
        }
      }
    }
  }

  /** How a run ends: no file to analyze for the pattern, an exception that
      escapes the script (before its `try`), one that the script catches and
      prints, or the report. */
  datatype RunResult = NoData(pattern: string) | Crashed(error: Failure) | Aborted(error: Failure) | Reported(report: Report)

  /** The script from `today` on. */
  function RunSpec(today: ValidDate, download: string -> seq<string>, rowsOf: string -> seq<Row>, src: Sources)
    : RunResult
  {
    match TargetDate(today)
    case None => Crashed(DateOutOfRange)
    case Some(target) =>
      var names := Selected(download(Pattern(target)));
      if names == [] then NoData(Pattern(target))
      else
        var (after, outcome) := RunFiles(Initial(), names, rowsOf, src);
        if outcome.Fail? then Aborted(outcome.error)
        else match ReportOf(after.date, after.prices)
          case Err(e) => Aborted(e)
          case Ok(report) => Reported(report)
  }

  /** Without a file to analyze the script reports the pattern. A report it
      writes is named after the date of the last file analyzed, which was
      among the files downloaded for the pattern, and its rows are the ones
      `FilesRows` describes for the files analyzed. */
  lemma RunSpecLaw(today: ValidDate, download: string -> seq<string>, rowsOf: string -> seq<Row>, src: Sources)
    requires TargetDate(today).Some?
    ensures var target := TargetDate(today).value;
            var names := Selected(download(Pattern(target)));
            var r := RunSpec(today, download, rowsOf, src);
            && (names == [] <==> r == NoData(Pattern(target)))
            && (r.Reported? ==>
                  var last := names[|names| - 1];
                  && last in download(Pattern(target)) && Include(last)
                  && FileDate(last).Ok?
                  && r.report.fileName == ReportFileName(FileDate(last).value)
                  && r.report.header == Header
                  && FilesRows(r.report.rows, names, rowsOf, src))
  {
    var target := TargetDate(today).value;
    var names := Selected(download(Pattern(target)));
    if names != [] {
      RunFilesLast(Initial(), names, rowsOf, src);
      SelectedLaw(download(Pattern(target)), names[|names| - 1]);
      if RunFiles(Initial(), names, rowsOf, src).1 == Pass {
        RunFilesRows(names, rowsOf, src);
      }
    }
  }

  /** With files to analyze, the script writes its report exactly when the
      loop over them completes, and a loop that stops ends the run with the
      error that stopped it and no report. */
  lemma RunSpecOutcome(today: ValidDate, download: string -> seq<string>, rowsOf: string -> seq<Row>, src: Sources)
    requires TargetDate(today).Some?
    ensures var names := Selected(download(Pattern(TargetDate(today).value)));
            var run := RunFiles(Initial(), names, rowsOf, src);
            names != [] ==>
              && (RunSpec(today, download, rowsOf, src).Reported? <==> run.1 == Pass)
              && (run.1.Fail? ==> RunSpec(today, download, rowsOf, src) == Aborted(run.1.error))
  {
    var names := Selected(download(Pattern(TargetDate(today).value)));
    if names != [] {
      RunFilesLast(Initial(), names, rowsOf, src);
    }
  }

  /** With files to analyze, the script writes its report exactly when every
      file has a date in its name, a RIC column in every row, and RICs that
      all compare. */
  lemma RunSpecReports(today: ValidDate, download: string -> seq<string>, rowsOf: string -> seq<Row>, src: Sources)
    requires TargetDate(today).Some?
    ensures var names := Selected(download(Pattern(TargetDate(today).value)));
            names != [] ==>
              (RunSpec(today, download, rowsOf, src).Reported? <==>
                 forall i | 0 <= i < |names| :: FileOk(names[i], rowsOf, src))
  {
    var names := Selected(download(Pattern(TargetDate(today).value)));
    RunSpecOutcome(today, download, rowsOf, src);
    RunFilesPass(Initial(), names, rowsOf, src);
  }

  /** The script's main block with the clock, the download and the files given. */
  method Run(today: ValidDate, download: string -> seq<string>, rowsOf: string -> seq<Row>, src: Sources)
    returns (out: RunResult)
    ensures out == RunSpec(today, download, rowsOf, src)
  {
    var target := TargetDate(today);
    if target.None? {
      return Crashed(DateOutOfRange);
    }
    var pattern := Pattern(target.value);
    var names := Selected(download(pattern));
    if names == [] {
      return NoData(pattern);
    }
    var cs := new CSVData();
    var i := 0;
    while i < |names|
      invariant 0 <= i <= |names|
      invariant RunFiles(cs.Snap(), names[i..], rowsOf, src) == RunFiles(Initial(), names, rowsOf, src)
    {
      var loaded := cs.LoadCsv(names[i], rowsOf(names[i]));
      if loaded.Fail? {
        return Aborted(loaded.error);
      }
      var checked := cs.CheckContents(src);
      if checked.Fail? {
        return Aborted(checked.error);
      }
      assert names[i..][1..] == names[i + 1..];
      i := i + 1;
    }
    var report := cs.GenerateReport();
    if report.Err? {
      return Aborted(report.error);
    }
    out := Reported(report.value);
  }
}

=== FILE: csv_data.dfy ===
/** `CSVData` of csv_data.py: one downloaded index file at a time (`date`,
    `id`, `data`), the comparison of each of its RICs with a price provider,
    and the accumulated table of differences (`prices`) that becomes the
    report.

    The file's rows, the providers' answers and `float()` are inputs: rows
    are given as `csv.DictReader` would yield them, and `Sources` bundles the
    remote calls and the number parser. */
module CsvData {
  import opened Wrappers
  import opened Text
  import opened Digits
  import opened Calendar
  import opened OrderedDicts
  import opened FinancialGetters

  /** One row as `csv.DictReader` yields it: header field to cell, the cell
      None where the row was shorter than the header. */
  type Row = map<string, Option<string>>

  /** `price_column`: the price column of an SNC file, by RIC suffix. */
  const PriceColumn: map<string, string> := map["DE" := "LOCAL PRICE", "L" := "INDEX PRICE"]

  /** `local_markets`: suffixes that are dropped from the lookup key. */
  const LocalMarkets: seq<string> := ["OQ", "P"]

  /** `quandl_tickers = ('IGLT')`: the parentheses do not make a tuple, so this
      is the string itself and every `in` test against it is a substring test. */
  const QuandlTickers: string := "IGLT"

  /** The header of the report. */
  const Header: seq<string> := ["Ticker", "CSV Price", "API Price", "Difference"]

  // ------------------------------------------------------------ file names

  function Min(a: int, b: int): int { if a < b then a else b }

  function Max(a: int, b: int): int { if a < b then b else a }

  /** `filename[:8]` */
  function DatePrefix(filename: string): (p: string)
    ensures |filename| >= 8 ==> p == filename[..8]
    ensures |filename| < 8 ==> p == filename
  {
    filename[..Min(8, |filename|)]
  }

  /** `datetime.strptime(filename[:8], "%Y%m%d")` */
  function FileDate(filename: string): (r: Result<ValidDate>)
    ensures r.Err? ==> r.error == BadFileDate(DatePrefix(filename))
  {
    match ParseYmd(DatePrefix(filename))
    case None => Err(BadFileDate(DatePrefix(filename)))
    case Some(d) => Ok(d)
  }

  /** `filename[-7:-4]`, Python's slice: negative bounds count from the end and
      are clamped at the start of the string. */
  function FormatId(filename: string): (id: string)
    ensures |filename| >= 7 ==> id == filename[|filename| - 7..|filename| - 4]
    ensures |filename| < 7 ==> id == filename[..Max(|filename| - 4, 0)]
  {
    filename[Max(|filename| - 7, 0)..Max(|filename| - 4, 0)]
  }

  /** The as-of date is read from the first eight characters, and a file name
      that starts with a rendered date yields that date. */
  lemma FileDateLaw(filename: string, d: Date)
    requires Valid(d)
    ensures FileDate(RenderYmd(d) + filename) == Ok(d)
    ensures FileDate(filename).Ok? ==> |filename| >= 8 && RenderYmd(FileDate(filename).value) == filename[..8]
  {
    assert (RenderYmd(d) + filename)[..8] == RenderYmd(d);
    ParseRenderYmd(d);
    if FileDate(filename).Ok? {
      ParseYmdInverse(DatePrefix(filename));
    }
  }

  /** The format id is the three characters before the '.csv' extension:
      `'...SNA.csv'` gives `'SNA'`. */
  lemma FormatIdOfName(stem: string, id: string)
    requires |id| == 3
    ensures FormatId(stem + id + ".csv") == id
  {
    var f := stem + id + ".csv";
    assert |f| == |stem| + 7;
    forall i | 0 <= i < 3
      ensures f[|stem| + i] == id[i]
    {
    }
  }

  // ------------------------------------------------------------- row index

  /** Keeps the row: its RIC cell is present and not empty (`if row['RIC']`). */
  predicate HasRic(row: Row)
  {
    "RIC" in row && row["RIC"].Some? && row["RIC"].value != ""
  }

  /** How many rows the loop gets through: it raises at the first row without
      a RIC column. */
  function RowsRead(rows: seq<Row>): (n: nat)
    ensures n <= |rows|
  {
    if rows == [] || "RIC" !in rows[0] then 0 else 1 + RowsRead(rows[1..])
  }

  /** The loop stops at `n` when every earlier row has a RIC column and the
      `n`th (if any) has none. */
  lemma {:induction false} RowsReadAt(rows: seq<Row>, n: nat)
    requires n <= |rows| && forall i | 0 <= i < n :: "RIC" in rows[i]
    requires n < |rows| ==> "RIC" !in rows[n]
    ensures RowsRead(rows) == n
    decreases n
  {
    if n > 0 {
      assert "RIC" in rows[0];
      RowsReadAt(rows[1..], n - 1);
    }
  }

  /** The (RIC, row) assignments `self.data[row['RIC']] = row` performs, in order. */
  function RicPairs(rows: seq<Row>): seq<(string, Row)>
  {
    if rows == [] then []
    else
      var row := rows[|rows| - 1];
      RicPairs(rows[..|rows| - 1]) + (if HasRic(row) then [(row["RIC"].value, row)] else [])
  }

  /** `self.data` after the loop has run over `rows`. */
  function Indexed(rows: seq<Row>): OrderedDict<string, Row>
  {
    PutAll(Empty(), RicPairs(rows))
  }

  /** The last row among `rows` whose RIC is `ric`. */
  function LastRow(rows: seq<Row>, ric: string): (r: Option<Row>)
    ensures r.Some? ==> r.value in rows && HasRic(r.value) && r.value["RIC"] == Some(ric)
    ensures r.None? ==> forall i | 0 <= i < |rows| :: !HasRic(rows[i]) || rows[i]["RIC"] != Some(ric)
    ensures r.Some? ==> exists i | 0 <= i < |rows| ::
              rows[i] == r.value && forall j | i < j < |rows| :: !HasRic(rows[j]) || rows[j]["RIC"] != Some(ric)
  {
    if rows == [] then None
    else
      var row := rows[|rows| - 1];
      if HasRic(row) && row["RIC"] == Some(ric) then Some(row) else LastRow(rows[..|rows| - 1], ric)
  }

  /** The row index holds, under each non-empty RIC, the last row carrying it,
      and nothing under any other key. */
  lemma {:induction false} IndexedLookup(rows: seq<Row>, ric: string)
    ensures Lookup(Indexed(rows), ric) == LastRow(rows, ric)
    decreases |rows|
  {
    if rows != [] {
      var init := rows[..|rows| - 1];
      IndexedLookup(init, ric);
      var row := rows[|rows| - 1];
      if HasRic(row) {
        assert RicPairs(rows) == RicPairs(init) + [(row["RIC"].value, row)];
        assert Indexed(rows) == Put(Indexed(init), row["RIC"].value, row);
      } else {
        assert RicPairs(rows) == RicPairs(init);
      }
    }
  }

  /** One more row read: the index gains that row under its RIC, if it has one. */
  lemma IndexedExtend(rows: seq<Row>, n: nat)
    requires n < |rows|
    ensures HasRic(rows[n]) ==> Indexed(rows[..n + 1]) == Put(Indexed(rows[..n]), rows[n]["RIC"].value, rows[n])
    ensures !HasRic(rows[n]) ==> Indexed(rows[..n + 1]) == Indexed(rows[..n])
  {
    assert rows[..n + 1][..n] == rows[..n];
    assert rows[..n + 1][n] == rows[n];
    if HasRic(rows[n]) {
      assert RicPairs(rows[..n + 1]) == RicPairs(rows[..n]) + [(rows[n]["RIC"].value, rows[n])];
    } else {
      assert RicPairs(rows[..n + 1]) == RicPairs(rows[..n]);
    }
  }

  // ------------------------------------------------------------ resolution

  datatype Provider = Quandl | AlphaVantage

  /** What `compare` derives from a RIC: the lookup key (the `ticker` it
      returns), the suffix, and the getter class it builds. */
  datatype Route = Route(key: string, suffix: string, provider: Provider)

  /** The first lines of `compare`: `ticker, suffix = RIC.split('.')`, the key
      rewrite, and the choice of getter. */
  function Resolve(ric: string): Result<Route>
  {
    var parts := Split(ric, ".");
    if |parts| != 2 then Err(MalformedRic(ric))
    else
      var key := if !Contains(QuandlTickers, parts[0]) && parts[1] !in LocalMarkets then ric else parts[0];
      Ok(Route(key, parts[1], if Contains(QuandlTickers, key) then Quandl else AlphaVantage))
  }

  /** The unpacking fails exactly when the RIC does not hold exactly one '.'. */
  lemma ResolveFailsIff(ric: string)
    ensures Resolve(ric).Err? <==> multiset(ric)['.'] != 1
    ensures Resolve(ric).Err? ==> Resolve(ric) == Err(MalformedRic(ric))
  {
    SplitCharCount(ric, '.');
  }

  /** For a RIC `ticker.suffix`, the key is the bare ticker when the suffix is a
      local market or the ticker is a substring of "IGLT", and the whole RIC
      otherwise (`AAA.OQ` gives `AAA`, `BBB.DE` gives `BBB.DE`). */
  lemma ResolveKey(ticker: string, suffix: string)
    requires '.' !in ticker && '.' !in suffix
    ensures var ric := ticker + "." + suffix;
            && Resolve(ric).Ok?
            && Resolve(ric).value.suffix == suffix
            && Resolve(ric).value.key ==
                 (if suffix in LocalMarkets || Contains(QuandlTickers, ticker) then ticker else ric)
  {
    var ric := ticker + "." + suffix;
    ContainsChar(ticker, '.');
    ContainsChar(suffix, '.');
    forall i | 0 <= i < |ticker|
      ensures !("." <= (ticker + "." + suffix)[i..])
    {
      assert (ticker + "." + suffix)[i..][0] == ticker[i];
    }
    SplitAfter(ticker, ".", suffix);
    SplitWithout(suffix, ".");
  }

  /** Quandl is chosen exactly when the key is a substring of "IGLT"; such a
      key never carries a suffix, so it is the bare ticker. */
  lemma QuandlRoute(ric: string)
    requires Resolve(ric).Ok?
    ensures Resolve(ric).value.provider == Quandl <==> Contains(QuandlTickers, Resolve(ric).value.key)
    ensures Resolve(ric).value.provider == Quandl ==> Resolve(ric).value.key == Split(ric, ".")[0]
  {
    var parts := Split(ric, ".");
    if Contains(QuandlTickers, ric) {
      SplitSeveralIff(ric, ".");
      NoDotInQuandlTicker(ric);
      ContainsChar(ric, '.');
      assert false;
    }
  }

  /** A substring of "IGLT" holds no '.'. */
  lemma NoDotInQuandlTicker(t: string)
    requires Contains(QuandlTickers, t)
    ensures '.' !in t
  {
    ContainsIff(QuandlTickers, t);
    var i :| OccursAt(QuandlTickers, t, i);
    forall j | 0 <= j < |t|
      ensures t[j] != '.'
    {
      assert t[j] == QuandlTickers[i + j];
    }
  }

  /** A short ticker such as `IG` is a substring of "IGLT", so `IG.L` is sent
      to Quandl under the key `IG`, which has no Quandl database. */
  lemma ShortTickerGoesToQuandl()
    ensures Resolve("IG.L") == Ok(Route("IG", "L", Quandl))
    ensures QuandlKey("IG") == Err(UnknownDatabase("IG"))
  {
    ResolveKey("IG", "L");
    assert "IG" + "." + "L" == "IG.L";
    assert "IG" <= QuandlTickers;
  }

  /** The price column: SNC files by suffix (`INDEX PRICE` for a suffix with no
      entry), SNA files `CURRENT PRICE`, and no column for any other id. */
  function PriceColumnFor(id: Option<string>, suffix: string): (r: Result<string>)
    ensures r.Err? <==> id != Some("SNC") && id != Some("SNA")
    ensures r.Err? ==> r.error == UnknownFormat(id)
    ensures id == Some("SNA") ==> r == Ok("CURRENT PRICE")
    ensures id == Some("SNC") ==> r == Ok(if suffix == "DE" then "LOCAL PRICE" else "INDEX PRICE")
  {
    if id == Some("SNC") then Ok(if suffix in PriceColumn then PriceColumn[suffix] else "INDEX PRICE")
    else if id == Some("SNA") then Ok("CURRENT PRICE")
    else Err(UnknownFormat(id))
  }

  // ------------------------------------------------------------ comparison

  /** The outside world `compare` consults: Quandl's `get`, the attempts
      AlphaVantage's retry loop sees for each ticker, and `float()` on a text
      (None where it raises). */
  datatype Sources = Sources(
    quandlGet: string -> Option<QuandlTable>,
    avAttempts: string -> seq<Attempt>,
    toFloat: string -> Option<real>)

  /** What `compare` returns: `(ticker, csv_price, api_price)`. */
  datatype Comparison = Comparison(ticker: string, csvPrice: real, apiPrice: Option<real>)

  /** The frame a fresh getter of the given class holds after `load_data(key)`. */
  function Load(key: string, provider: Provider, src: Sources): Result<Frame>
  {
    match provider
    case Quandl => QuandlLoad(key, src.quandlGet)
    case AlphaVantage => AVLoad(key, src.avAttempts(key))
  }

  /** `api.price(date=...)` on a getter holding `frame`. */
  function PriceOf(provider: Provider, frame: Frame, date: Date): Result<Option<string>>
  {
    match provider
    case Quandl => QuandlPrice(Some(frame), date)
    case AlphaVantage => AVPrice(Some(frame), date, false)
  }

  /** `self.data[RIC]`, the first subscript of `self.data[RIC][column]`:
      it raises before the column is looked at. */
  function RowOf(data: Option<OrderedDict<string, Row>>, ric: string): (r: Result<Row>)
    ensures r.Ok? <==> data.Some? && ric in data.value.items
    ensures r.Ok? ==> r.value == data.value.items[ric]
    ensures data.None? ==> r == Err(NotLoaded)
    ensures data.Some? && ric !in data.value.items ==> r == Err(UnknownRic(ric))
  {
    if data.None? then Err(NotLoaded)
    else if ric !in data.value.items then Err(UnknownRic(ric))
    else Ok(data.value.items[ric])
  }

  /** `float(x)` for a text or None. */
  function FloatOf(x: Option<string>, toFloat: string -> Option<real>): (r: Result<real>)
    ensures r.Ok? <==> x.Some? && toFloat(x.value).Some?
    ensures r.Ok? ==> r.value == toFloat(x.value).value
    ensures r.Err? ==> r.error == NotANumber(x)
  {
    if x.None? || toFloat(x.value).None? then Err(NotANumber(x)) else Ok(toFloat(x.value).value)
  }

  /** The file's price for `ric`: `float(self.data[RIC][column])`, evaluated
      left to right, so the row is found before the column is chosen. */
  function CsvPrice(ric: string, suffix: string, id: Option<string>, data: Option<OrderedDict<string, Row>>,
                    toFloat: string -> Option<real>): Result<real>
  {
    var row :- RowOf(data, ric);
    var column :- PriceColumnFor(id, suffix);
    if column !in row then Err(MissingCell(ric, column))
    else FloatOf(row[column], toFloat)
  }

  /** The provider's price: absent unless the as-of date is `in` the frame,
      which for a pandas frame tests its column labels. Without a date the
      warning's `self.date.date()` raises. */
  function ApiPrice(provider: Provider, frame: Frame, date: Option<ValidDate>,
                    toFloat: string -> Option<real>): Result<Option<real>>
  {
    if date.None? then Err(NotLoaded)
    else if At(date.value) !in frame then Ok(None)
    else
      var quote :- PriceOf(provider, frame, date.value);
      var price :- FloatOf(quote, toFloat);
      Ok(Some(price))
  }

  /** `compare(RIC)` on a loaded file: resolve, load a fresh getter, read the
      file's price, then the provider's. */
  function CompareSpec(ric: string, id: Option<string>, data: Option<OrderedDict<string, Row>>,
                       date: Option<ValidDate>, src: Sources): Result<Comparison>
  {
    var route :- Resolve(ric);
    var frame :- Load(route.key, route.provider, src);
    var csvPrice :- CsvPrice(ric, route.suffix, id, data, src.toFloat);
    var apiPrice :- ApiPrice(route.provider, frame, date, src.toFloat);
    Ok(Comparison(route.key, csvPrice, apiPrice))
  }

  /** A RIC without exactly one '.' fails before any getter is built. */
  lemma CompareMalformed(ric: string, id: Option<string>, data: Option<OrderedDict<string, Row>>,
                         date: Option<ValidDate>, src: Sources)
    requires multiset(ric)['.'] != 1
    ensures CompareSpec(ric, id, data, date, src) == Err(MalformedRic(ric))
  {
    ResolveFailsIff(ric);
  }

  /** The file's price exists exactly when the RIC has a row, the format is
      known, the row has the column, the cell was present and it reads as a
      number; it is that number. The row is looked up first: without a loaded
      file or a row for the RIC the format is never consulted. */
  lemma CsvPriceLaw(ric: string, suffix: string, id: Option<string>, data: Option<OrderedDict<string, Row>>,
                    toFloat: string -> Option<real>)
    ensures var r := CsvPrice(ric, suffix, id, data, toFloat);
            var column := PriceColumnFor(id, suffix);
            && (r.Ok? <==>
                  && column.Ok? && data.Some? && ric in data.value.items
                  && column.value in data.value.items[ric]
                  && data.value.items[ric][column.value].Some?
                  && toFloat(data.value.items[ric][column.value].value).Some?)
            && (r.Ok? ==> Some(r.value) == toFloat(data.value.items[ric][column.value].value))
    ensures data.None? ==> CsvPrice(ric, suffix, id, data, toFloat) == Err(NotLoaded)
    ensures data.Some? && ric !in data.value.items ==> CsvPrice(ric, suffix, id, data, toFloat) == Err(UnknownRic(ric))
    ensures data.Some? && ric in data.value.items && PriceColumnFor(id, suffix).Err? ==>
              CsvPrice(ric, suffix, id, data, toFloat) == Err(UnknownFormat(id))
  {
  }

  /** The provider's price is given exactly when the as-of date is a column of
      the frame; for AlphaVantage it is then the day's `close` field as a
      number. Without a date the lookup fails. */
  lemma ApiPriceLaw(provider: Provider, frame: Frame, date: Option<ValidDate>, toFloat: string -> Option<real>)
    ensures var r := ApiPrice(provider, frame, date, toFloat);
            && (r.Ok? && r.value.Some? ==> date.Some? && At(date.value) in frame)
            && (date.None? ==> r == Err(NotLoaded))
            && (date.Some? && At(date.value) !in frame ==> r == Ok(None))
            && (provider == AlphaVantage && date.Some? && At(date.value) in frame ==>
                  (r.Ok? <==> Named("close") in frame[At(date.value)] && toFloat(frame[At(date.value)][Named("close")]).Some?)
                  && (r.Ok? ==> r.value == toFloat(frame[At(date.value)][Named("close")])))
  {
  }

  /** For a RIC that resolves, whose getter loads and whose file cell reads
      as a number, `compare` returns the lookup key and that number. The
      provider price is None whenever the as-of date is not a column of the
      loaded frame, and always for Quandl; for AlphaVantage a date column
      gives the day's `close` read as a number, and fails when there is none. */
  lemma CompareOutcome(ric: string, id: Option<string>, data: Option<OrderedDict<string, Row>>,
                       date: Option<ValidDate>, src: Sources)
    requires Resolve(ric).Ok? && Load(Resolve(ric).value.key, Resolve(ric).value.provider, src).Ok?
    requires data.Some? && ric in data.value.items && PriceColumnFor(id, Resolve(ric).value.suffix).Ok?
    requires var row := data.value.items[ric];
             var column := PriceColumnFor(id, Resolve(ric).value.suffix).value;
             column in row && row[column].Some? && src.toFloat(row[column].value).Some?
    ensures var route := Resolve(ric).value;
            var frame := Load(route.key, route.provider, src).value;
            var row := data.value.items[ric];
            var csvPrice := src.toFloat(row[PriceColumnFor(id, route.suffix).value].value).value;
            var r := CompareSpec(ric, id, data, date, src);
            && (date.None? ==> r == Err(NotLoaded))
            && (date.Some? && (At(date.value) !in frame || route.provider == Quandl) ==>
                  r == Ok(Comparison(route.key, csvPrice, None)))
            && (route.provider == AlphaVantage && date.Some? && At(date.value) in frame ==>
                  var day := frame[At(date.value)];
                  && (r.Ok? <==> Named("close") in day && src.toFloat(day[Named("close")]).Some?)
                  && (r.Ok? ==> r.value == Comparison(route.key, csvPrice, src.toFloat(day[Named("close")]))))
  {
    var route := Resolve(ric).value;
    var frame := Load(route.key, route.provider, src).value;
    CsvPriceLaw(ric, route.suffix, id, data, src.toFloat);
    ApiPriceLaw(route.provider, frame, date, src.toFloat);
    if route.provider == Quandl {
      QuandlNeverPriced(route.key, src, date);
    }
  }

  /** A Quandl frame's columns are field names, so a date is never `in` it
      and every RIC served by Quandl is reported without a provider price. */
  lemma QuandlNeverPriced(key: string, src: Sources, date: Option<ValidDate>)
    requires Load(key, Quandl, src).Ok?
    ensures date.Some? ==> ApiPrice(Quandl, Load(key, Quandl, src).value, date, src.toFloat) == Ok(None)
  {
    if date.Some? {
      var table := src.quandlGet(QuandlKey(key).value).value;
      QuandlFrameHasNoDateColumn(table, date.value);
    }
  }

  // ----------------------------------------------------------- aggregation

  /** A report cell: a number, or the text 'NA'. */
  datatype Figure = Num(x: real) | NA

  /** One entry of `self.prices`, one row of the report. */
  datatype Entry = Entry(ticker: string, csvPrice: real, apiPrice: Figure, difference: Figure)

  /** The entry `check_contents` stores for a comparison: the provider price
      and the difference are 'NA' when the provider price is falsy (None or
      zero). */
  function EntryOf(c: Comparison): (e: Entry)
    ensures e.ticker == c.ticker && e.csvPrice == c.csvPrice
    ensures e.apiPrice == NA <==> c.apiPrice.None? || c.apiPrice.value == 0.0
    ensures e.difference == NA <==> e.apiPrice == NA
    ensures e.apiPrice.Num? ==> c.apiPrice == Some(e.apiPrice.x) && e.difference == Num(c.csvPrice - e.apiPrice.x)
  {
    if c.apiPrice.None? || c.apiPrice.value == 0.0 then Entry(c.ticker, c.csvPrice, NA, NA)
    else Entry(c.ticker, c.csvPrice, Num(c.apiPrice.value), Num(c.csvPrice - c.apiPrice.value))
  }

  /** `compare` as a function of the RIC, on a fixed loaded file and fixed sources. */
  function Comparer(id: Option<string>, data: Option<OrderedDict<string, Row>>, date: Option<ValidDate>,
                    src: Sources): string -> Result<Comparison>
  {
    ric => CompareSpec(ric, id, data, date, src)
  }

  /** The loop of `check_contents` over `rics`, starting from `prices`: each
      comparison's entry is stored under its RIC, and the first failing
      comparison ends the loop with the entries stored so far. */
  function CheckFrom(prices: OrderedDict<string, Entry>, rics: seq<string>, compare: string -> Result<Comparison>)
    : (OrderedDict<string, Entry>, Outcome)
    decreases |rics|
  {
    if rics == [] then (prices, Pass)
    else match compare(rics[0])
      case Err(e) => (prices, Fail(e))
      case Ok(c) => CheckFrom(Put(prices, rics[0], EntryOf(c)), rics[1..], compare)
  }

  /** The loop completes exactly when every comparison succeeds. */
  lemma {:induction false} CheckFromPass(prices: OrderedDict<string, Entry>, rics: seq<string>,
                                         compare: string -> Result<Comparison>)
    ensures CheckFrom(prices, rics, compare).1 == Pass <==> forall i | 0 <= i < |rics| :: compare(rics[i]).Ok?
    decreases |rics|
  {
    if rics != [] && compare(rics[0]).Ok? {
      var rest := rics[1..];
      CheckFromPass(Put(prices, rics[0], EntryOf(compare(rics[0]).value)), rest, compare);
      if forall j | 0 <= j < |rest| :: compare(rest[j]).Ok? {
        forall i | 0 <= i < |rics|
          ensures compare(rics[i]).Ok?
        {
          if i > 0 { assert rics[i] == rest[i - 1]; }
        }
      }
    }
  }

  /** One turn of the loop: a successful comparison stores its entry and the
      loop goes on with the next RIC. */
  lemma CheckFromStep(prices: OrderedDict<string, Entry>, rics: seq<string>, compare: string -> Result<Comparison>)
    requires rics != [] && compare(rics[0]).Ok?
    ensures CheckFrom(prices, rics, compare) == CheckFrom(Put(prices, rics[0], EntryOf(compare(rics[0]).value)), rics[1..], compare)
  {
  }

  /** `rics[i]` is the first RIC whose comparison fails. */
  predicate FirstFailing(rics: seq<string>, compare: string -> Result<Comparison>, i: int)
  {
    0 <= i < |rics| && compare(rics[i]).Err? && forall j | 0 <= j < i :: compare(rics[j]).Ok?
  }

  /** A loop that does not complete fails with the error of the first failing
      comparison, and keeps the entries stored for the RICs before it. */
  lemma {:induction false} CheckFromFailure(prices: OrderedDict<string, Entry>, rics: seq<string>,
                                            compare: string -> Result<Comparison>)
    requires CheckFrom(prices, rics, compare).1.Fail?
    ensures exists i :: FirstFailing(rics, compare, i)
              && compare(rics[i]) == Err(CheckFrom(prices, rics, compare).1.error)
              && CheckFrom(prices, rics, compare).0 == CheckFrom(prices, rics[..i], compare).0
    decreases |rics|
  {
    var result := CheckFrom(prices, rics, compare);
    if compare(rics[0]).Ok? {
      var next := Put(prices, rics[0], EntryOf(compare(rics[0]).value));
      CheckFromStep(prices, rics, compare);
      CheckFromFailure(next, rics[1..], compare);
      var k :| FirstFailing(rics[1..], compare, k) && compare(rics[1..][k]) == Err(result.1.error)
               && result.0 == CheckFrom(next, rics[1..][..k], compare).0;
      FirstFailingShift(rics, compare, k);
      CheckFromPrefixStep(prices, rics, compare, k + 1);
    } else {
      assert FirstFailing(rics, compare, 0);
      assert rics[..0] == [];
    }
  }

  /** A first failure past a successful first RIC is one place further on in
      the whole list. */
  lemma FirstFailingShift(rics: seq<string>, compare: string -> Result<Comparison>, k: int)
    requires rics != [] && compare(rics[0]).Ok? && FirstFailing(rics[1..], compare, k)
    ensures FirstFailing(rics, compare, k + 1) && rics[k + 1] == rics[1..][k]
  {
    forall j | 0 < j <= k
      ensures compare(rics[j]).Ok?
    {
      assert rics[j] == rics[1..][j - 1];
    }
  }

  /** The loop over a prefix past a successful first RIC. */
  lemma CheckFromPrefixStep(prices: OrderedDict<string, Entry>, rics: seq<string>,
                            compare: string -> Result<Comparison>, i: int)
    requires 1 <= i <= |rics| && compare(rics[0]).Ok?
    ensures CheckFrom(prices, rics[..i], compare)
              == CheckFrom(Put(prices, rics[0], EntryOf(compare(rics[0]).value)), rics[1..][..i - 1], compare)
  {
    PrefixTail(rics, i);
    CheckFromStep(prices, rics[..i], compare);
  }

  /** Distinct RICs new to the table are appended in the order they are
      visited. */
  lemma {:induction false} CheckFromOrder(prices: OrderedDict<string, Entry>, rics: seq<string>,
                                          compare: string -> Result<Comparison>)
    requires forall i, j | 0 <= i < j < |rics| :: rics[i] != rics[j]
    requires forall i | 0 <= i < |rics| :: rics[i] !in prices.items
    requires CheckFrom(prices, rics, compare).1 == Pass
    ensures CheckFrom(prices, rics, compare).0.keys == prices.keys + rics
    decreases |rics|
  {
    if rics != [] {
      assert compare(rics[0]).Ok?;
      var next := Put(prices, rics[0], EntryOf(compare(rics[0]).value));
      CheckFromStep(prices, rics, compare);
      FreshTail(prices, rics, EntryOf(compare(rics[0]).value));
      CheckFromOrder(next, rics[1..], compare);
      AppendFirst(prices.keys, rics);
    }
  }

  /** The keys of a table after `rics` are stored into it in turn, when
      every store succeeds: a RIC not yet listed goes after all the others,
      a listed one keeps its place. */
  function Appended(keys: seq<string>, rics: seq<string>): seq<string>
    decreases |rics|
  {
    if rics == [] then keys
    else Appended(if rics[0] in keys then keys else keys + [rics[0]], rics[1..])
  }

  /** The keys already listed stay at the front, and exactly the old keys and
      the stored RICs are listed. */
  lemma {:induction false} AppendedLaw(keys: seq<string>, rics: seq<string>, x: string)
    ensures keys <= Appended(keys, rics)
    ensures x in Appended(keys, rics) <==> x in keys || x in rics
    decreases |rics|
  {
    if rics != [] {
      var next := if rics[0] in keys then keys else keys + [rics[0]];
      AppendedLaw(next, rics[1..], x);
      assert x in rics <==> x == rics[0] || x in rics[1..];
    }
  }

  /** A completed loop lists the table's keys in the order `Appended` gives,
      whether or not the RICs are new to it. */
  lemma {:induction false} CheckFromKeys(prices: OrderedDict<string, Entry>, rics: seq<string>,
                                         compare: string -> Result<Comparison>)
    requires CheckFrom(prices, rics, compare).1 == Pass
    ensures CheckFrom(prices, rics, compare).0.keys == Appended(prices.keys, rics)
    decreases |rics|
  {
    if rics != [] {
      assert compare(rics[0]).Ok?;
      var next := Put(prices, rics[0], EntryOf(compare(rics[0]).value));
      CheckFromStep(prices, rics, compare);
      assert next.keys == if rics[0] in prices.keys then prices.keys else prices.keys + [rics[0]];
      CheckFromKeys(next, rics[1..], compare);
    }
  }

  lemma PrefixTail(s: seq<string>, i: nat)
    requires 1 <= i <= |s|
    ensures s[..i] != [] && s[..i][0] == s[0] && s[..i][1..] == s[1..][..i - 1]
  {
  }

  lemma DropFirst(s: seq<string>, n: nat)
    requires n < |s|
    ensures s[n..] != [] && s[n..][0] == s[n] && s[n..][1..] == s[n + 1..]
  {
  }

  lemma AppendFirst(a: seq<string>, s: seq<string>)
    requires s != []
    ensures a + [s[0]] + s[1..] == a + s
  {
  }

  /** After the first of distinct RICs new to the table is stored, the rest
      are distinct and new to the table, and the first went last. */
  lemma FreshTail(prices: OrderedDict<string, Entry>, rics: seq<string>, e: Entry)
    requires rics != []
    requires forall i, j | 0 <= i < j < |rics| :: rics[i] != rics[j]
    requires forall i | 0 <= i < |rics| :: rics[i] !in prices.items
    ensures Put(prices, rics[0], e).keys == prices.keys + [rics[0]]
    ensures forall i, j | 0 <= i < j < |rics[1..]| :: rics[1..][i] != rics[1..][j]
    ensures forall i | 0 <= i < |rics[1..]| :: rics[1..][i] !in Put(prices, rics[0], e).items
  {
    var rest := rics[1..];
    forall i, j | 0 <= i < j < |rest|
      ensures rest[i] != rest[j]
    {
      assert rest[i] == rics[i + 1] && rest[j] == rics[j + 1];
    }
    forall i | 0 <= i < |rest|
      ensures rest[i] !in Put(prices, rics[0], e).items
    {
      assert rest[i] == rics[i + 1];
    }
  }

  /** Old keys keep their places; when the loop completes, every RIC holds the
      entry of its comparison and every other key keeps its entry. */
  lemma {:induction false} CheckFromLookup(prices: OrderedDict<string, Entry>, rics: seq<string>,
                                           compare: string -> Result<Comparison>, ric: string)
    ensures var (after, outcome) := CheckFrom(prices, rics, compare);
            && prices.keys <= after.keys
            && (outcome == Pass ==>
                  if ric in rics then compare(ric).Ok? && Lookup(after, ric) == Some(EntryOf(compare(ric).value))
                  else Lookup(after, ric) == Lookup(prices, ric))
    decreases |rics|
  {
    if rics != [] {
      var c := compare(rics[0]);
      if c.Ok? {
        var next := Put(prices, rics[0], EntryOf(c.value));
        CheckFromLookup(next, rics[1..], compare, ric);
        assert ric in rics <==> ric == rics[0] || ric in rics[1..];
      }
    }
  }

  // ---------------------------------------------------------------- report

  /** The report: its file name, header and rows. */
  datatype Report = Report(fileName: string, header: seq<string>, rows: seq<Entry>)

  /** `'MPIBEST20_%s%s%s.csv' % (year, month, day)`: the numbers unpadded. */
  function ReportFileName(d: ValidDate): string
  {
    "MPIBEST20_" + Decimal(d.year) + Decimal(d.month) + Decimal(d.day) + ".csv"
  }

  /** The entries of `prices` in insertion order. */
  function RowsOf(prices: OrderedDict<string, Entry>): seq<Entry>
  {
    seq(|prices.keys|, i requires 0 <= i < |prices.keys| => prices.items[prices.keys[i]])
  }

  /** What `generate_report` writes; it fails without a loaded file's date. */
  function ReportOf(date: Option<ValidDate>, prices: OrderedDict<string, Entry>): Result<Report>
  {
    if date.None? then Err(NotLoaded) else Ok(Report(ReportFileName(date.value), Header, RowsOf(prices)))
  }

  /** The `k`-th row is the entry stored under the `k`-th key. */
  lemma RowAt(prices: OrderedDict<string, Entry>, k: nat)
    requires k < |prices.keys|
    ensures k < |RowsOf(prices)|
    ensures Lookup(prices, prices.keys[k]) == Some(RowsOf(prices)[k])
  {
  }

  /** The report lists every stored entry once, under the position its RIC was
      first stored at, and nothing else. */
  lemma ReportRows(prices: OrderedDict<string, Entry>, ric: string)
    ensures |RowsOf(prices)| == |prices.items|
    ensures ric in prices.items ==> exists i | 0 <= i < |prices.keys| ::
              prices.keys[i] == ric && RowsOf(prices)[i] == prices.items[ric]
  {
    DistinctCard(prices);
    if ric in prices.items {
      var i :| 0 <= i < |prices.keys| && prices.keys[i] == ric;
      assert RowsOf(prices)[i] == prices.items[ric];
    }
  }

  /** A dict has as many entries as keys in its order. */
  lemma DistinctCard<V>(d: OrderedDict<string, V>)
    ensures |d.items| == |d.keys|
  {
    var ks := d.keys;
    var keySet := set i | 0 <= i < |ks| :: ks[i];
    assert d.items.Keys == keySet;
    IndexSetCard(ks);
  }

  /** A sequence without repetitions has as many distinct elements as positions. */
  lemma {:induction false} IndexSetCard(ks: seq<string>)
    requires forall i, j | 0 <= i < j < |ks| :: ks[i] != ks[j]
    ensures |set i | 0 <= i < |ks| :: ks[i]| == |ks|
    decreases |ks|
  {
    if ks != [] {
      var init := ks[..|ks| - 1];
      IndexSetCard(init);
      var s := set i | 0 <= i < |ks| :: ks[i];
      var t := set i | 0 <= i < |init| :: init[i];
      assert s == t + {ks[|ks| - 1]};
      assert ks[|ks| - 1] !in t;
    }
  }

  /** Unpadded numbers make file names collide: 11 January and 1 November 2018
      get the same report name. */
  lemma ReportNamesCollide()
    ensures ReportFileName(Date(2018, 1, 11)) == ReportFileName(Date(2018, 11, 1))
  {
    var prefix := "MPIBEST20_" + Decimal(2018);
    assert Decimal(1) == "1" && Decimal(11) == "11";
    assert prefix + "1" + "11" == prefix + "111" == prefix + "11" + "1";
  }

  /** From October on, for days 10 to 31 of years 1000 to 9999, the name
      carries the eight-digit `YYYYMMDD` form. */
  lemma ReportNameTwoDigits(d: ValidDate)
    requires d.year >= 1000 && d.month >= 10 && d.day >= 10
    ensures ReportFileName(d) == "MPIBEST20_" + RenderYmd(d) + ".csv"
  {
    assert Pow10(1) == 10 && Pow10(2) == 100 && Pow10(3) == 1000 && Pow10(4) == 10000;
    assert d.day <= 31;
    assert Decimal(d.year) == Padded(d.year, 4) by { DecimalWidth(d.year, 4); }
    assert Decimal(d.month) == Padded(d.month, 2) by { DecimalWidth(d.month, 2); }
    assert Decimal(d.day) == Padded(d.day, 2) by { DecimalWidth(d.day, 2); }
  }

  /** A number with exactly `w` digits is written the same padded to width `w` or not. */
  lemma {:induction false} DecimalWidth(n: nat, w: nat)
    requires 1 <= w && Pow10(w - 1) <= n < Pow10(w)
    ensures Decimal(n) == Padded(n, w)
    decreases w
  {
    if w == 1 {
      assert n < 10;
    } else {
      assert Pow10(w - 1) == 10 * Pow10(w - 2);
      DecimalWidth(n / 10, w - 1);
    }
  }

  // ----------------------------------------------------------- load + check

  /** The fields `load_csv` sets and the outcome, from the state before: the
      date and the id are taken from the name before the rows are read, and a
      row without a RIC column raises with the rows before it indexed. */
  datatype Snapshot = Snapshot(id: Option<string>, data: Option<OrderedDict<string, Row>>,
                               date: Option<ValidDate>, prices: OrderedDict<string, Entry>)

  function LoadStep(s: Snapshot, filename: string, rows: seq<Row>): (Snapshot, Outcome)
  {
    match FileDate(filename)
    case Err(e) => (s, Fail(e))
    case Ok(d) =>
      var n := RowsRead(rows);
      var loaded := s.(date := Some(d), id := Some(FormatId(filename)), data := Some(Indexed(rows[..n])));
      (loaded, if n == |rows| then Pass else Fail(MissingRicColumn))
  }

  /** `check_contents`: fails without a loaded file, else runs the loop over the file's RICs in order. */
  function CheckStep(s: Snapshot, src: Sources): (Snapshot, Outcome)
  {
    if s.data.None? then (s, Fail(NotLoaded))
    else
      var (prices, outcome) := CheckFrom(s.prices, s.data.value.keys, Comparer(s.id, s.data, s.date, src));
      (s.(prices := prices), outcome)
  }

  /** Loading a file replaces the date, the id and the row index, and keeps the
      entries of earlier files. */
  lemma LoadStepLaw(s: Snapshot, filename: string, rows: seq<Row>, ric: string)
    requires FileDate(filename).Ok?
    ensures var (after, outcome) := LoadStep(s, filename, rows);
            && after.date == Some(FileDate(filename).value)
            && after.id == Some(FormatId(filename))
            && after.prices == s.prices
            && (outcome == Pass <==> forall i | 0 <= i < |rows| :: "RIC" in rows[i])
            && (outcome == Pass ==> after.data == Some(Indexed(rows)))
            && (outcome == Pass ==> Lookup(after.data.value, ric) == LastRow(rows, ric))
  {
    var n := RowsRead(rows);
    if forall i | 0 <= i < |rows| :: "RIC" in rows[i] {
      RowsReadAt(rows, |rows|);
      assert rows[..n] == rows;
      IndexedLookup(rows, ric);
    } else {
      var k :| 0 <= k < |rows| && "RIC" !in rows[k];
      RowsCovered(rows, k);
    }
  }

  /** The loop never gets past a row without a RIC column. */
  lemma {:induction false} RowsCovered(rows: seq<Row>, k: nat)
    requires k < |rows| && "RIC" !in rows[k]
    ensures RowsRead(rows) <= k
    decreases k
  {
    if k > 0 && "RIC" in rows[0] {
      RowsCovered(rows[1..], k - 1);
    }
  }

  /** A completed check stores, for every RIC of the loaded file, the entry of
      its comparison, and keeps every other entry. */
  lemma CheckStepLaw(s: Snapshot, src: Sources, ric: string)
    requires s.data.Some?
    ensures var (after, outcome) := CheckStep(s, src);
            && after.(prices := s.prices) == s
            && s.prices.keys <= after.prices.keys
            && (outcome == Pass ==>
                    if ric in s.data.value.items then
                      CompareSpec(ric, s.id, s.data, s.date, src).Ok? &&
                      Lookup(after.prices, ric) == Some(EntryOf(CompareSpec(ric, s.id, s.data, s.date, src).value))
                    else Lookup(after.prices, ric) == Lookup(s.prices, ric))
  {
    CheckFromLookup(s.prices, s.data.value.keys, Comparer(s.id, s.data, s.date, src), ric);
  }

  /** A check, complete or not, keeps every key stored before it. */
  lemma CheckStepKeys(s: Snapshot, src: Sources)
    ensures s.prices.keys <= CheckStep(s, src).0.prices.keys
  {
    if s.data.Some? {
      CheckFromLookup(s.prices, s.data.value.keys, Comparer(s.id, s.data, s.date, src), "");
    }
  }

  // ------------------------------------------------------------- the class

  class CSVData {
    var id: Option<string>
    var data: Option<OrderedDict<string, Row>>
    var date: Option<ValidDate>
    var prices: OrderedDict<string, Entry>

    function Snap(): Snapshot
      reads this
    {
      Snapshot(id, data, date, prices)
    }

    constructor()
      ensures Snap() == Snapshot(None, None, None, Empty())
    {
      id := None;
      data := None;
      date := None;
      prices := Empty();
    }

    /** `load_csv(path, filename)` with the file's rows given. */
    method LoadCsv(filename: string, rows: seq<Row>) returns (r: Outcome)
      modifies this
      ensures (Snap(), r) == LoadStep(old(Snap()), filename, rows)
    {
      var parsed := FileDate(filename);
      if parsed.Err? {
        return Fail(parsed.error);
      }
      date := Some(parsed.value);
      id := Some(FormatId(filename));
      data := Some(Empty());
      var index;
      index, r := IndexRows(rows);
      data := Some(index);
    }

    /** The `for row in reader` loop of `load_csv`: the index of the rows read
        before the first row without a RIC column, and whether there was one. */
    static method IndexRows(rows: seq<Row>) returns (index: OrderedDict<string, Row>, r: Outcome)
      ensures index == Indexed(rows[..RowsRead(rows)])
      ensures r == if RowsRead(rows) == |rows| then Pass else Fail(MissingRicColumn)
    {
      index := Empty();
      var n := 0;
      while n < |rows|
        invariant 0 <= n <= |rows|
        invariant forall i | 0 <= i < n :: "RIC" in rows[i]
        invariant index == Indexed(rows[..n])
      {
        var row := rows[n];
        if "RIC" !in row {
          RowsReadAt(rows, n);
          return index, Fail(MissingRicColumn);
        }
        IndexedExtend(rows, n);
        if HasRic(row) {
          index := Put(index, row["RIC"].value, row);
        }
        n := n + 1;
      }
      RowsReadAt(rows, n);
      assert rows[..n] == rows;
      r := Pass;
    }

    /** `compare(RIC)`; it changes nothing here, the getter it loads is its own. */
    method Compare(ric: string, src: Sources) returns (r: Result<Comparison>)
      ensures r == CompareSpec(ric, id, data, date, src)
    {
      var route := Resolve(ric);
      if route.Err? {
        return Err(route.error);
      }
      var frame := LoadGetter(route.value.key, route.value.provider, src);
      if frame.Err? {
        return Err(frame.error);
      }
      var csvPrice := CsvPrice(ric, route.value.suffix, id, data, src.toFloat);
      if csvPrice.Err? {
        return Err(csvPrice.error);
      }
      var apiPrice := ApiPrice(route.value.provider, frame.value, date, src.toFloat);
      if apiPrice.Err? {
        return Err(apiPrice.error);
      }
      r := Ok(Comparison(route.value.key, csvPrice.value, apiPrice.value));
    }

    /** `QuandlData()` or `AVData()` followed by `load_data(ticker=key)`: the
        getter is new, so the `loaded_ticker != ticker` guard always holds. */
    static method LoadGetter(key: string, provider: Provider, src: Sources) returns (r: Result<Frame>)
      ensures r == Load(key, provider, src)
    {
      if provider == Quandl {
        var api := new QuandlData();
        assert api.loadedTicker != Some(key);
        var outcome := api.LoadData(key, src.quandlGet);
        if outcome.Fail? {
          return Err(outcome.error);
        }
        r := Ok(api.data.value);
      } else {
        var api := new AVData();
        assert api.loadedTicker != Some(key);
        var outcome := api.LoadData(key, src.avAttempts(key));
        if outcome.Fail? {
          return Err(outcome.error);
        }
        r := Ok(api.data.value);
      }
    }

    /** `check_contents()` */
    method CheckContents(src: Sources) returns (r: Outcome)
      modifies this
      ensures (Snap(), r) == CheckStep(old(Snap()), src)
    {
      if data.None? {
        return Fail(NotLoaded);
      }
      var rics := data.value.keys;
      var n := 0;
      while n < |rics|
        invariant 0 <= n <= |rics|
        invariant id == old(id) && data == old(data) && date == old(date)
        invariant CheckFrom(prices, rics[n..], Comparer(id, data, date, src)) == CheckFrom(old(prices), rics, Comparer(id, data, date, src))
      {
        var c := Compare(rics[n], src);
        DropFirst(rics, n);
        if c.Err? {
          return Fail(c.error);
        }
        CheckFromStep(prices, rics[n..], Comparer(id, data, date, src));
        prices := Put(prices, rics[n], EntryOf(c.value));
        n := n + 1;
      }
      r := Pass;
    }

    /** `generate_report()` without the file writing and the e-mail. */
    method GenerateReport() returns (r: Result<Report>)
      ensures r == ReportOf(date, prices)
    {
      if date.None? {
        return Err(NotLoaded);
      }
      var rows: seq<Entry> := [];
      var n := 0;
      while n < |prices.keys|
        invariant 0 <= n <= |prices.keys|
        invariant rows == RowsOf(prices)[..n]
      {
        rows := rows + [prices.items[prices.keys[n]]];
        n := n + 1;
      }
      assert RowsOf(prices)[..n] == RowsOf(prices);
      r := Ok(Report(ReportFileName(date.value), Header, rows));
    }
  }
}

=== FILE: digits.dfy ===
/** Decimal digit strings: reading them (`int(s)` on digits) and writing
    numbers with a fixed, zero-padded width (`strftime`'s `%Y`, `%m`, `%d`)
    or with no padding (`'%s' % n`). */
module Digits {
  import opened Wrappers

  predicate IsDigit(c: char) { '0' <= c <= '9' }

  predicate AllDigits(s: string) { forall i | 0 <= i < |s| :: IsDigit(s[i]) }

  function DigitChar(d: nat): (c: char)
    requires d < 10
    ensures IsDigit(c)
  {
    ('0' as int + d) as char
  }

  function ValueOf(c: char): (d: nat)
    requires IsDigit(c)
    ensures d < 10 && DigitChar(d) == c
  {
    c as int - '0' as int
  }

  function Pow10(n: nat): (p: nat)
    ensures p >= 1
  {
    if n == 0 then 1 else 10 * Pow10(n - 1)
  }

  /** The number a string of decimal digits denotes; leading zeros are allowed. */
  function NatOf(s: string): (n: nat)
    requires AllDigits(s)
    ensures n < Pow10(|s|)
  {
    if s == [] then 0 else 10 * NatOf(s[..|s| - 1]) + ValueOf(s[|s| - 1])
  }

  /** The two digits at `s[i]`, `s[i + 1]` as a number; None if either is not a digit. */
  function Read2(s: string, i: nat): Option<nat>
    requires i + 2 <= |s|
  {
    if IsDigit(s[i]) && IsDigit(s[i + 1]) then Some(10 * ValueOf(s[i]) + ValueOf(s[i + 1])) else None
  }

  /** The four digits from `s[i]` on as a number; None if any is not a digit. */
  function Read4(s: string, i: nat): Option<nat>
    requires i + 4 <= |s|
  {
    match (Read2(s, i), Read2(s, i + 2))
    case (Some(high), Some(low)) => Some(100 * high + low)
    case _ => None
  }

  /** `Read2` accepts exactly two digits and reads them as `NatOf` does. */
  lemma Read2Digits(s: string, i: nat)
    requires i + 2 <= |s|
    ensures Read2(s, i).Some? <==> AllDigits(s[i..i + 2])
    ensures Read2(s, i).Some? ==> Read2(s, i).value == NatOf(s[i..i + 2])
  {
    var t := s[i..i + 2];
    assert t[0] == s[i] && t[1] == s[i + 1];
    assert t[..1][..0] == [];
  }

  /** `Read4` accepts exactly four digits and reads them as `NatOf` does. */
  lemma Read4Digits(s: string, i: nat)
    requires i + 4 <= |s|
    ensures Read4(s, i).Some? <==> AllDigits(s[i..i + 4])
    ensures Read4(s, i).Some? ==> Read4(s, i).value == NatOf(s[i..i + 4])
  {
    Read2Digits(s, i);
    Read2Digits(s, i + 2);
    var t := s[i..i + 4];
    assert t[..2] == s[i..i + 2] && t[2..] == s[i + 2..i + 4];
    if AllDigits(t) {
      assert AllDigits(t[..2]) && AllDigits(t[2..]);
      NatOfFour(t);
    } else {
      var k :| 0 <= k < 4 && !IsDigit(t[k]);
      if k < 2 { assert t[..2][k] == t[k]; } else { assert t[2..][k - 2] == t[k]; }
    }
  }

  /** A four-digit string reads as its first two digits times 100 plus its last two. */
  lemma NatOfFour(t: string)
    requires |t| == 4 && AllDigits(t)
    ensures NatOf(t) == 100 * NatOf(t[..2]) + NatOf(t[2..])
  {
    assert t[..3][..2] == t[..2];
    assert t[2..][..1] == [t[2]] && [t[2]][..0] == [];
    assert NatOf(t) == 10 * NatOf(t[..3]) + ValueOf(t[3]);
    assert NatOf(t[..3]) == 10 * NatOf(t[..2]) + ValueOf(t[2]);
    assert NatOf(t[2..]) == 10 * ValueOf(t[2]) + ValueOf(t[3]);
  }

  /** `n` written with exactly `w` digits, zero-padded on the left. */
  function Padded(n: nat, w: nat): (s: string)
    requires n < Pow10(w)
    ensures |s| == w && AllDigits(s) && NatOf(s) == n
  {
    if w == 0 then []
    else
      var s := Padded(n / 10, w - 1) + [DigitChar(n % 10)];
      assert s[..|s| - 1] == Padded(n / 10, w - 1);
      s
  }

  /** Every digit string of width `w` is the padded rendering of its value, so
      `Padded` and `NatOf` are inverse bijections at a fixed width. */
  lemma {:induction false} PaddedNatOf(s: string)
    requires AllDigits(s)
    ensures Padded(NatOf(s), |s|) == s
    decreases |s|
  {
    if s != [] {
      var init := s[..|s| - 1];
      PaddedNatOf(init);
      var n := NatOf(s);
      assert n / 10 == NatOf(init) && n % 10 == ValueOf(s[|s| - 1]);
      assert s == init + [s[|s| - 1]];
    }
  }

  /** Python's `str(n)` for a natural number: no leading zero, "0" for zero. */
  function Decimal(n: nat): (s: string)
    ensures |s| >= 1 && AllDigits(s) && NatOf(s) == n
    ensures |s| > 1 ==> s[0] != '0'
  {
    if n < 10 then [DigitChar(n)]
    else
      var s := Decimal(n / 10) + [DigitChar(n % 10)];
      assert s[..|s| - 1] == Decimal(n / 10);
      s
  }
}

=== FILE: financial_getters.dfy ===
/** The two price getters of financial_getters.py. Each holds one ticker's
    history at a time (`data`, `loaded_ticker`); `load_data` replaces it and
    `price` reads one cell of it.

    The remote services are inputs: `quandl.get(key)` is a function from key
    to table (None when the request raises), and AlphaVantage's
    `get_daily_adjusted(ticker)` is the sequence of attempts the retry loop
    sees, each one dropped or answered. */
module FinancialGetters {
  import opened Wrappers
  import opened Text
  import opened Digits
  import opened Calendar

  /** A row or column label of a pandas DataFrame: a date or a name. */
  datatype Label = At(date: Date) | Named(name: string)

  /** A DataFrame as `df[column][row]` reads it, and as `x in df` tests it
      (against the column labels). Cells keep the text the provider sent. */
  type Frame = map<Label, map<Label, string>>

  /** One column of a Quandl table: date to value. */
  type Series = map<Date, string>

  /** What `quandl.get(key)` returns: named columns over a date index. */
  type QuandlTable = map<string, Series>

  /** One day of an AlphaVantage answer: its (label, value) pairs in the order
      sent, labels such as '1. open' or '5. adjusted close'. */
  type Fields = seq<(string, string)>

  /** An AlphaVantage daily history: (date text, that day's fields) pairs in
      the order sent, date texts such as '2018-02-08'. */
  type History = seq<(string, Fields)>

  /** The keys of a JSON object, as of any Python dict, are distinct. */
  predicate DistinctKeys<V>(ps: seq<(string, V)>)
  {
    forall i, j | 0 <= i < j < |ps| :: ps[i].0 != ps[j].0
  }

  /** One call of `get_daily_adjusted`: it raised, or it answered with a history. */
  datatype Attempt = Dropped | Delivered(history: History)

  /** `quandl_db`: the parent database of each ticker Quandl serves. */
  const QuandlDb: map<string, string> := map["IGLT" := "LSE"]

  // ---------------------------------------------------------------- Quandl

  /** `quandl_db[ticker] + '/' + ticker`, failing like the KeyError for a ticker with no database. */
  function QuandlKey(ticker: string): (r: Result<string>)
    ensures r.Ok? <==> ticker == "IGLT"
    ensures r.Ok? ==> r.value == "LSE/IGLT"
  {
    if ticker in QuandlDb then Ok(QuandlDb[ticker] + "/" + ticker) else Err(UnknownDatabase(ticker))
  }

  /** The DataFrame `quandl.get` builds: one column per named series, rows indexed by date. */
  function QuandlFrame(table: QuandlTable): (f: Frame)
    ensures forall c | c in f :: c.Named? && c.name in table
    ensures forall c | c in table :: Named(c) in f && forall d | d in table[c] :: At(d) in f[Named(c)] && f[Named(c)][At(d)] == table[c][d]
  {
    var columns := set c | c in table :: Named(c);
    map c | c in columns :: DateIndexed(table[c.name])
  }

  /** A series as a DataFrame column: its dates become row labels. */
  function DateIndexed(series: Series): (col: map<Label, string>)
    ensures forall l | l in col :: l.At? && l.date in series && col[l] == series[l.date]
    ensures forall d | d in series :: At(d) in col
  {
    var rows := set d | d in series :: At(d);
    map l | l in rows :: series[l.date]
  }

  /** What `QuandlData.load_data(ticker)` puts in `data`, or the exception it raises. */
  function QuandlLoad(ticker: string, get: string -> Option<QuandlTable>): Result<Frame>
  {
    var key :- QuandlKey(ticker);
    match get(key)
    case None => Err(QuandlRequestFailed(key))
    case Some(table) => Ok(QuandlFrame(table))
  }

  /** `QuandlData.price`: None with nothing loaded, else `data['Price'][date]`. */
  function QuandlPrice(data: Option<Frame>, date: Date): (r: Result<Option<string>>)
    ensures data.None? ==> r == Ok(None)
    ensures data.Some? ==> (r.Ok? <==> Named("Price") in data.value && At(date) in data.value[Named("Price")])
    ensures data.Some? && r.Ok? ==> r.value == Some(data.value[Named("Price")][At(date)])
  {
    match data
    case None => Ok(None)
    case Some(f) =>
      if Named("Price") in f && At(date) in f[Named("Price")] then Ok(Some(f[Named("Price")][At(date)]))
      else Err(MissingField("Price"))
  }

  /** A Quandl frame never has a date among its column labels, so `date in data`
      is false for every date. */
  lemma QuandlFrameHasNoDateColumn(table: QuandlTable, date: Date)
    ensures At(date) !in QuandlFrame(table)
  {
  }

  // ---------------------------------------------------------- AlphaVantage

  /** The answer the retry loop ends with: the first attempt that was not dropped. */
  function FirstDelivered(attempts: seq<Attempt>): Option<History>
    decreases |attempts|
  {
    if attempts == [] then None
    else if attempts[0].Delivered? then Some(attempts[0].history)
    else FirstDelivered(attempts[1..])
  }

  /** The loop gives up only when every attempt was dropped, and otherwise
      ends with the answer of the first attempt that was not. */
  lemma {:induction false} FirstDeliveredLaw(attempts: seq<Attempt>)
    ensures FirstDelivered(attempts).None? <==> forall i | 0 <= i < |attempts| :: attempts[i].Dropped?
    ensures FirstDelivered(attempts).Some? ==> exists i | 0 <= i < |attempts| ::
              attempts[i] == Delivered(FirstDelivered(attempts).value) && forall j | 0 <= j < i :: attempts[j].Dropped?
    decreases |attempts|
  {
    if attempts != [] && attempts[0].Dropped? {
      var rest := attempts[1..];
      FirstDeliveredLaw(rest);
      assert forall i | 1 <= i < |attempts| :: attempts[i] == rest[i - 1];
      if FirstDelivered(rest).Some? {
        var i :| 0 <= i < |rest| && rest[i] == Delivered(FirstDelivered(rest).value)
                 && forall j | 0 <= j < i :: rest[j].Dropped?;
        assert attempts[i + 1] == rest[i];
      }
    } else if attempts != [] {
      assert attempts[0] == Delivered(FirstDelivered(attempts).value);
    }
  }

  /** Dropped attempts before the others do not change which answer is used. */
  lemma {:induction false} FirstDeliveredAfterDrops(drops: seq<Attempt>, attempts: seq<Attempt>)
    requires forall i | 0 <= i < |drops| :: drops[i] == Dropped
    ensures FirstDelivered(drops + attempts) == FirstDelivered(attempts)
    decreases |drops|
  {
    if drops != [] {
      var all := drops + attempts;
      assert all[0] == Dropped && all[1..] == drops[1..] + attempts;
      assert FirstDelivered(all) == FirstDelivered(all[1..]);
      FirstDeliveredAfterDrops(drops[1..], attempts);
    } else {
      assert drops + attempts == attempts;
    }
  }

  /** `old_key.split('. ')[1]`: None where Python raises IndexError. */
  function CleanLabel(key: string): Option<string>
  {
    var parts := Split(key, ". ");
    if |parts| >= 2 then Some(parts[1]) else None
  }

  /** A label fails to clean exactly when it has no '. ' in it. */
  lemma CleanLabelFails(key: string)
    ensures CleanLabel(key).None? <==> !Contains(key, ". ")
  {
    SplitSeveralIff(key, ". ");
  }

  /** A numbered label loses its number: `'5. adjusted close'` becomes `'adjusted close'`. */
  lemma CleanNumberedLabel(number: string, name: string)
    requires AllDigits(number) && !Contains(name, ". ")
    ensures CleanLabel(number + ". " + name) == Some(name)
  {
    var s := number + ". " + name;
    forall i | 0 <= i < |number|
      ensures !(". " <= s[i..])
    {
      assert s[i..][0] == number[i];
    }
    SplitAfter(number, ". ", name);
    SplitWithout(name, ". ");
  }

  /** `__clean_keys` over the first `n` fields: each label is replaced by its
      cleaned form, a later field overwriting an earlier one that cleans to
      the same name; the first label without '. ' raises. */
  function CleanedPrefix(fields: Fields, n: nat): Result<map<string, string>>
    requires n <= |fields|
  {
    if n == 0 then Ok(map[])
    else
      var m :- CleanedPrefix(fields, n - 1);
      match CleanLabel(fields[n - 1].0)
      case None => Err(BadFieldLabel(fields[n - 1].0))
      case Some(name) => Ok(m[name := fields[n - 1].1])
  }

  function Cleaned(fields: Fields): Result<map<string, string>>
  {
    CleanedPrefix(fields, |fields|)
  }

  /** Once a label fails, the rest of the loop is never reached. */
  lemma {:induction false} CleanedSticks(fields: Fields, n: nat, total: nat)
    requires n <= total <= |fields| && CleanedPrefix(fields, n).Err?
    ensures CleanedPrefix(fields, total) == CleanedPrefix(fields, n)
    decreases total
  {
    if total > n {
      CleanedSticks(fields, n, total - 1);
    }
  }

  /** `__clean_keys` succeeds exactly when every label has a '. ' in it. */
  lemma {:induction false} CleanedOkIff(fields: Fields, n: nat)
    requires n <= |fields|
    ensures CleanedPrefix(fields, n).Ok? <==> forall i | 0 <= i < n :: CleanLabel(fields[i].0).Some?
    decreases n
  {
    if n > 0 {
      CleanedOkIff(fields, n - 1);
    }
  }

  /** The cleaned fields hold exactly the cleaned names, and each name holds
      the value of the last field whose label cleans to it. */
  lemma {:induction false} CleanedLookup(fields: Fields, n: nat, name: string)
    requires n <= |fields| && CleanedPrefix(fields, n).Ok?
    ensures var m := CleanedPrefix(fields, n).value;
            name in m <==> exists i | 0 <= i < n :: CleanLabel(fields[i].0) == Some(name)
    ensures var m := CleanedPrefix(fields, n).value;
            name in m ==> exists i | 0 <= i < n ::
              && CleanLabel(fields[i].0) == Some(name)
              && m[name] == fields[i].1
              && forall j | i < j < n :: CleanLabel(fields[j].0) != Some(name)
    decreases n
  {
    if n > 0 {
      CleanedLookup(fields, n - 1, name);
      if CleanLabel(fields[n - 1].0) == Some(name) {
        assert CleanLabel(fields[n - 1].0) == Some(name);
      }
    }
  }

  /** The history comprehension over its first `n` days: each date text read
      as a date, each day's labels cleaned, the first failure raised. */
  function RekeyedPrefix(history: History, n: nat): Result<map<Date, map<string, string>>>
    requires n <= |history|
  {
    if n == 0 then Ok(map[])
    else
      var m :- RekeyedPrefix(history, n - 1);
      match ParseIso(history[n - 1].0)
      case None => Err(BadHistoryDate(history[n - 1].0))
      case Some(d) =>
        var fields :- Cleaned(history[n - 1].1);
        Ok(m[d := fields])
  }

  function Rekeyed(history: History): Result<map<Date, map<string, string>>>
  {
    RekeyedPrefix(history, |history|)
  }

  lemma {:induction false} RekeyedSticks(history: History, n: nat, total: nat)
    requires n <= total <= |history| && RekeyedPrefix(history, n).Err?
    ensures RekeyedPrefix(history, total) == RekeyedPrefix(history, n)
    decreases total
  {
    if total > n {
      RekeyedSticks(history, n, total - 1);
    }
  }

  /** One step of the comprehension: the next day either raises, and that is
      the outcome of the whole comprehension, or adds its date. */
  lemma RekeyedStep(history: History, n: nat)
    requires n < |history| && RekeyedPrefix(history, n).Ok?
    ensures ParseIso(history[n].0).None? ==> Rekeyed(history) == Err(BadHistoryDate(history[n].0))
    ensures ParseIso(history[n].0).Some? && Cleaned(history[n].1).Err? ==>
              Rekeyed(history) == Err(Cleaned(history[n].1).error)
    ensures ParseIso(history[n].0).Some? && Cleaned(history[n].1).Ok? ==>
              RekeyedPrefix(history, n + 1) ==
                Ok(RekeyedPrefix(history, n).value[ParseIso(history[n].0).value := Cleaned(history[n].1).value])
  {
    if ParseIso(history[n].0).None? || Cleaned(history[n].1).Err? {
      RekeyedSticks(history, n + 1, |history|);
    }
  }

  /** A successful comprehension over `n` days succeeded over the first `n - 1`
      and then added the last day's date. */
  lemma RekeyedLast(history: History, n: nat)
    requires 0 < n <= |history| && RekeyedPrefix(history, n).Ok?
    ensures RekeyedPrefix(history, n - 1).Ok?
    ensures ParseIso(history[n - 1].0).Some? && Cleaned(history[n - 1].1).Ok?
    ensures RekeyedPrefix(history, n).value ==
              RekeyedPrefix(history, n - 1).value[ParseIso(history[n - 1].0).value := Cleaned(history[n - 1].1).value]
  {
  }

  /** Re-keying succeeds exactly when every date text reads as a date and every day's labels clean. */
  lemma {:induction false} RekeyedOkIff(history: History, n: nat)
    requires n <= |history|
    ensures RekeyedPrefix(history, n).Ok? <==>
              forall i | 0 <= i < n :: ParseIso(history[i].0).Some? && Cleaned(history[i].1).Ok?
    decreases n
  {
    if n > 0 {
      RekeyedOkIff(history, n - 1);
      if RekeyedPrefix(history, n - 1).Err? {
        var i :| 0 <= i < n - 1 && !(ParseIso(history[i].0).Some? && Cleaned(history[i].1).Ok?);
        assert RekeyedPrefix(history, n).Err?;
      } else if !(ParseIso(history[n - 1].0).Some? && Cleaned(history[n - 1].1).Ok?) {
        assert RekeyedPrefix(history, n).Err?;
      } else {
        assert RekeyedPrefix(history, n).Ok?;
      }
    }
  }

  /** Two days of one answer never read as the same date: their texts differ,
      and so do the dates they denote. */
  lemma NoEarlierSameDate(history: History, i: nat, k: nat)
    requires DistinctKeys(history) && i < k < |history| && ParseIso(history[k].0).Some?
    ensures ParseIso(history[i].0) != ParseIso(history[k].0)
  {
    if ParseIso(history[i].0) == ParseIso(history[k].0) {
      IsoKeysInjective(history[i].0, history[k].0);
      assert false;
    }
  }

  /** Each day of the answer appears under its date, holding its cleaned fields. */
  lemma {:induction false} RekeyedDay(history: History, n: nat, i: nat)
    requires DistinctKeys(history) && i < n <= |history| && RekeyedPrefix(history, n).Ok?
    ensures var m := RekeyedPrefix(history, n).value;
            && ParseIso(history[i].0).Some?
            && ParseIso(history[i].0).value in m
            && Cleaned(history[i].1) == Ok(m[ParseIso(history[i].0).value])
    decreases n
  {
    RekeyedLast(history, n);
    if i < n - 1 {
      RekeyedDay(history, n - 1, i);
      NoEarlierSameDate(history, i, n - 1);
    }
  }

  /** The dates that the first `n` date texts of an answer denote. */
  function ParsedDates(history: History, n: nat): set<Date>
    requires n <= |history|
  {
    if n == 0 then {}
    else
      var earlier := ParsedDates(history, n - 1);
      match ParseIso(history[n - 1].0)
      case None => earlier
      case Some(d) => earlier + {d}
  }

  /** A date is among them exactly when one of the first `n` texts reads as it. */
  lemma {:induction false} ParsedDatesIff(history: History, n: nat, d: Date)
    requires n <= |history|
    ensures d in ParsedDates(history, n) <==> exists i | 0 <= i < n :: ParseIso(history[i].0) == Some(d)
    decreases n
  {
    if n > 0 {
      ParsedDatesIff(history, n - 1, d);
      if ParseIso(history[n - 1].0) == Some(d) {
        assert ParseIso(history[n - 1].0) == Some(d);
      }
    }
  }

  /** The dates of the re-keyed history are the dates the answer's texts denote. */
  lemma {:induction false} RekeyedDates(history: History, n: nat)
    requires n <= |history| && RekeyedPrefix(history, n).Ok?
    ensures RekeyedPrefix(history, n).value.Keys == ParsedDates(history, n)
    decreases n
  {
    if n > 0 {
      RekeyedDates(history, n - 1);
    }
  }

  /** A day's date is not among the dates of the days before it. */
  lemma {:induction false} FreshDate(history: History, k: nat, n: nat)
    requires DistinctKeys(history) && n <= k < |history| && ParseIso(history[k].0).Some?
    ensures ParseIso(history[k].0).value !in ParsedDates(history, n)
    decreases n
  {
    if n > 0 {
      FreshDate(history, k, n - 1);
      NoEarlierSameDate(history, n - 1, k);
    }
  }

  /** No two days merge: the re-keyed history has exactly as many dates as the answer has days. */
  lemma {:induction false} RekeyedSize(history: History, n: nat)
    requires DistinctKeys(history) && n <= |history| && RekeyedPrefix(history, n).Ok?
    ensures |RekeyedPrefix(history, n).value| == n
    decreases n
  {
    if n > 0 {
      RekeyedSize(history, n - 1);
      RekeyedDates(history, n - 1);
      FreshDate(history, n - 1, n - 1);
    }
  }

  /** A day's fields as a DataFrame column: the field names become row labels. */
  function NameIndexed(fields: map<string, string>): (col: map<Label, string>)
    ensures forall l | l in col :: l.Named? && l.name in fields && col[l] == fields[l.name]
    ensures forall k | k in fields :: Named(k) in col
  {
    var rows := set k | k in fields :: Named(k);
    map l | l in rows :: fields[l.name]
  }

  /** `DataFrame.from_dict(hist)`: the outer keys (dates) become the columns. */
  function FromDict(hist: map<Date, map<string, string>>): (f: Frame)
    ensures forall c | c in f :: c.At? && c.date in hist
    ensures forall d | d in hist :: At(d) in f && forall k | k in hist[d] :: Named(k) in f[At(d)] && f[At(d)][Named(k)] == hist[d][k]
  {
    var columns := set d | d in hist :: At(d);
    map c | c in columns :: NameIndexed(hist[c.date])
  }

  /** What `AVData.load_data(ticker)` puts in `data`, or why it never returns or raises. */
  function AVLoad(ticker: string, attempts: seq<Attempt>): Result<Frame>
  {
    match FirstDelivered(attempts)
    case None => Err(Stalled(ticker))
    case Some(history) =>
      var hist :- Rekeyed(history);
      Ok(FromDict(hist))
  }

  /** Once the answer is known, the load is the re-keyed answer as a frame, or the re-keying's error. */
  lemma AVLoadOf(ticker: string, attempts: seq<Attempt>, history: History)
    requires FirstDelivered(attempts) == Some(history)
    ensures Rekeyed(history).Err? ==> AVLoad(ticker, attempts) == Err(Rekeyed(history).error)
    ensures Rekeyed(history).Ok? ==> AVLoad(ticker, attempts) == Ok(FromDict(Rekeyed(history).value))
  {
  }

  /** A dropped connection is retried and never reaches the caller: any number
      of failed attempts before the answer leaves the outcome unchanged. */
  lemma AVLoadIgnoresDrops(ticker: string, drops: seq<Attempt>, attempts: seq<Attempt>)
    requires forall i | 0 <= i < |drops| :: drops[i] == Dropped
    ensures AVLoad(ticker, drops + attempts) == AVLoad(ticker, attempts)
  {
    FirstDeliveredAfterDrops(drops, attempts);
  }

  /** After a successful load, `date in data` holds exactly for the dates the
      answer's days denote, and that column holds the day's cleaned fields. */
  lemma AVLoadDate(ticker: string, attempts: seq<Attempt>, date: Date)
    requires AVLoad(ticker, attempts).Ok? && DistinctKeys(FirstDelivered(attempts).value)
    ensures var history := FirstDelivered(attempts).value;
            At(date) in AVLoad(ticker, attempts).value <==>
              exists i | 0 <= i < |history| :: ParseIso(history[i].0) == Some(date)
    ensures var history := FirstDelivered(attempts).value;
            forall i | 0 <= i < |history| && ParseIso(history[i].0) == Some(date) ::
              && Cleaned(history[i].1).Ok?
              && AVLoad(ticker, attempts).value[At(date)] == NameIndexed(Cleaned(history[i].1).value)
  {
    var history := FirstDelivered(attempts).value;
    AVLoadOf(ticker, attempts, history);
    RekeyedDates(history, |history|);
    ParsedDatesIff(history, |history|, date);
    forall i | 0 <= i < |history| && ParseIso(history[i].0) == Some(date)
      ensures Cleaned(history[i].1).Ok?
      ensures AVLoad(ticker, attempts).value[At(date)] == NameIndexed(Cleaned(history[i].1).value)
    {
      RekeyedDay(history, |history|, i);
    }
  }

  /** `AVData.price`: None with nothing loaded, else `data[date]['close']`, or
      `data[date]['adjusted close']` when the adjusted price is asked for. */
  function AVPrice(data: Option<Frame>, date: Date, adjusted: bool): (r: Result<Option<string>>)
    ensures data.None? ==> r == Ok(None)
    ensures data.Some? ==>
              var field := if adjusted then "adjusted close" else "close";
              && (r.Ok? <==> At(date) in data.value && Named(field) in data.value[At(date)])
              && (r.Ok? ==> r.value == Some(data.value[At(date)][Named(field)]))
              && (r.Err? ==> r.error == MissingField(field))
  {
    match data
    case None => Ok(None)
    case Some(f) =>
      var field := if adjusted then "adjusted close" else "close";
      if At(date) in f && Named(field) in f[At(date)] then Ok(Some(f[At(date)][Named(field)]))
      else Err(MissingField(field))
  }

  // --------------------------------------------------------------- getters

  class QuandlData {
    var data: Option<Frame>
    var loadedTicker: Option<string>

    constructor()
      ensures data == None && loadedTicker == None
    {
      data := None;
      loadedTicker := None;
    }

    /** Replaces the loaded history by `ticker`'s, or raises and changes nothing. */
    method LoadData(ticker: string, get: string -> Option<QuandlTable>) returns (r: Outcome)
      modifies this
      ensures QuandlLoad(ticker, get).Ok? ==>
                r == Pass && data == Some(QuandlLoad(ticker, get).value) && loadedTicker == Some(ticker)
      ensures QuandlLoad(ticker, get).Err? ==>
                r == Fail(QuandlLoad(ticker, get).error) && data == old(data) && loadedTicker == old(loadedTicker)
    {
      if ticker !in QuandlDb {
        return Fail(UnknownDatabase(ticker));
      }
      var key := QuandlDb[ticker] + "/" + ticker;
      var answer := get(key);
      if answer.None? {
        return Fail(QuandlRequestFailed(key));
      }
      data := Some(QuandlFrame(answer.value));
      loadedTicker := Some(ticker);
      r := Pass;
    }
  }

  class AVData {
    var data: Option<Frame>
    var loadedTicker: Option<string>

    constructor()
      ensures data == None && loadedTicker == None
    {
      data := None;
      loadedTicker := None;
    }

    /** Asks until an attempt is answered, then re-keys the answer by date and
        makes it the loaded history; raises, changing nothing, on a malformed answer. */
    method LoadData(ticker: string, attempts: seq<Attempt>) returns (r: Outcome)
      modifies this
      ensures AVLoad(ticker, attempts).Ok? ==>
                r == Pass && data == Some(AVLoad(ticker, attempts).value) && loadedTicker == Some(ticker)
      ensures AVLoad(ticker, attempts).Err? ==>
                r == Fail(AVLoad(ticker, attempts).error) && data == old(data) && loadedTicker == old(loadedTicker)
    {
      var i := 0;
      while i < |attempts| && attempts[i].Dropped?
        invariant 0 <= i <= |attempts|
        invariant FirstDelivered(attempts[i..]) == FirstDelivered(attempts)
      {
        assert attempts[i..][1..] == attempts[i + 1..];
        i := i + 1;
      }
      if i == |attempts| {
        assert attempts[i..] == [];
        return Fail(Stalled(ticker));
      }
      var history := attempts[i].history;
      assert attempts[i..][0] == attempts[i];
      assert FirstDelivered(attempts) == Some(history);
      AVLoadOf(ticker, attempts, history);
      var hist := Rekey(history);
      if hist.Err? {
        return Fail(hist.error);
      }
      data := Some(FromDict(hist.value));
      loadedTicker := Some(ticker);
      r := Pass;
    }

    /** The comprehension `{format_date(date): self.__clean_keys(hist[date]) for date in hist}`,
        evaluated in the answer's order and stopping at the first exception. */
    method Rekey(history: History) returns (r: Result<map<Date, map<string, string>>>)
      ensures r == Rekeyed(history)
    {
      var hist: map<Date, map<string, string>> := map[];
      var n := 0;
      while n < |history|
        invariant 0 <= n <= |history|
        invariant RekeyedPrefix(history, n) == Ok(hist)
      {
        var (key, day) := history[n];
        RekeyedStep(history, n);
        var date := ParseIso(key);
        if date.None? {
          return Err(BadHistoryDate(key));
        }
        var fields := CleanKeys(day);
        if fields.Err? {
          return Err(fields.error);
        }
        hist := hist[date.value := fields.value];
        n := n + 1;
      }
      r := Ok(hist);
    }

    /** `__clean_keys`: a new field map whose labels are the cleaned ones. */
    method CleanKeys(fields: Fields) returns (r: Result<map<string, string>>)
      ensures r == Cleaned(fields)
    {
      var newKeys: map<string, string> := map[];
      var n := 0;
      while n < |fields|
        invariant 0 <= n <= |fields|
        invariant CleanedPrefix(fields, n) == Ok(newKeys)
      {
        var (oldKey, value) := fields[n];
        var parts := Split(oldKey, ". ");
        if |parts| < 2 {
          CleanedSticks(fields, n + 1, |fields|);
          return Err(BadFieldLabel(oldKey));
        }
        newKeys := newKeys[parts[1] := value];
        n := n + 1;
      }
      r := Ok(newKeys);
    }
  }
}

=== FILE: ordered_dicts.dfy ===
/** Python's `dict`: a finite map that also remembers the order in which its
    keys were first inserted, which is the order `for k in d` visits them. */
module OrderedDicts {
  import opened Wrappers

  datatype Dict<K, V> = Dict(keys: seq<K>, items: map<K, V>)

  /** Every key is listed once, and exactly the keys of the entries are listed. */
  ghost predicate WellFormed<K, V>(d: Dict<K, V>)
  {
    && (forall i, j | 0 <= i < j < |d.keys| :: d.keys[i] != d.keys[j])
    && (forall k | k in d.items :: k in d.keys)
    && (forall i | 0 <= i < |d.keys| :: d.keys[i] in d.items)
  }

  type OrderedDict<K, V> = d: Dict<K, V> | WellFormed(d) witness Dict([], map[])

  /** `{}` */
  function Empty<K, V>(): OrderedDict<K, V>
  {
    Dict([], map[])
  }

  /** `d.get(k)` */
  function Lookup<K, V>(d: Dict<K, V>, k: K): Option<V>
  {
    if k in d.items then Some(d.items[k]) else None
  }

  /** `d[k] = v`: the entry for `k` now holds `v`, every other entry is kept,
      and no key moves (a new key goes after all the others). */
  function Put<K(==), V>(d: OrderedDict<K, V>, k: K, v: V): (r: OrderedDict<K, V>)
    ensures r.items == d.items[k := v]
    ensures d.keys <= r.keys && |r.keys| <= |d.keys| + 1
  {
    if k in d.items then Dict(d.keys, d.items[k := v]) else Dict(d.keys + [k], d.items[k := v])
  }

  /** `for k, v in ps: d[k] = v` */
  function PutAll<K(==), V>(d: OrderedDict<K, V>, ps: seq<(K, V)>): OrderedDict<K, V>
    decreases |ps|
  {
    if ps == [] then d
    else
      var last := ps[|ps| - 1];
      Put(PutAll(d, ps[..|ps| - 1]), last.0, last.1)
  }

  /** The value paired with the last occurrence of `k` in `ps`, if any. */
  function LastValue<K(==), V>(ps: seq<(K, V)>, k: K): (r: Option<V>)
    ensures r.None? <==> forall i | 0 <= i < |ps| :: ps[i].0 != k
    ensures r.Some? ==> exists i | 0 <= i < |ps| :: ps[i] == (k, r.value) && forall j | i < j < |ps| :: ps[j].0 != k
    decreases |ps|
  {
    if ps == [] then None
    else if ps[|ps| - 1].0 == k then Some(ps[|ps| - 1].1)
    else LastValue(ps[..|ps| - 1], k)
  }

  /** After a run of assignments, a key holds the value of its last assignment,
      or what it held before if it was never assigned; the old keys keep their
      places at the front. */
  lemma {:induction false} PutAllLookup<K, V>(d: OrderedDict<K, V>, ps: seq<(K, V)>, k: K)
    ensures Lookup(PutAll(d, ps), k) == if LastValue(ps, k).Some? then LastValue(ps, k) else Lookup(d, k)
    ensures d.keys <= PutAll(d, ps).keys
    decreases |ps|
  {
    if ps != [] {
      PutAllLookup(d, ps[..|ps| - 1], k);
    }
  }
}

=== FILE: text.dfy ===
/** Python's string operations that the price checker relies on:
    `p in s` (substring test) and `s.split(sep)`. */
module Text {

  /** `p` occurs in `s` starting at index `i`. */
  predicate OccursAt(s: string, p: string, i: int)
  {
    0 <= i && i + |p| <= |s| && s[i..i + |p|] == p
  }

  /** Python's `p in s` for two strings; the empty string occurs everywhere. */
  function Contains(s: string, p: string): bool
    decreases |s|
  {
    p <= s || (s != [] && Contains(s[1..], p))
  }

  lemma {:induction false} ContainsIff(s: string, p: string)
    ensures Contains(s, p) <==> exists i :: OccursAt(s, p, i)
    decreases |s|
  {
    if s == [] {
      if p == [] { assert OccursAt(s, p, 0); }
    } else {
      ContainsIff(s[1..], p);
      if Contains(s, p) {
        if p <= s {
          assert OccursAt(s, p, 0);
        } else {
          var i :| OccursAt(s[1..], p, i);
          assert s[1..][i..i + |p|] == s[i + 1..i + 1 + |p|];
          assert OccursAt(s, p, i + 1);
        }
      }
      if exists i :: OccursAt(s, p, i) {
        var i :| OccursAt(s, p, i);
        if i == 0 {
          assert p <= s;
        } else {
          assert s[1..][i - 1..i - 1 + |p|] == s[i..i + |p|];
          assert OccursAt(s[1..], p, i - 1);
        }
      }
    }
  }

  /** A one-character pattern occurs in `s` exactly when that character is one of its elements. */
  lemma {:induction false} ContainsChar(s: string, c: char)
    ensures Contains(s, [c]) <==> c in s
    decreases |s|
  {
    if s != [] {
      ContainsChar(s[1..], c);
      assert s == [s[0]] + s[1..];
    }
  }

  /** Python's `s.split(sep)` for a non-empty separator: the pieces between the
      leftmost non-overlapping occurrences of `sep`, scanning left to right. */
  function Split(s: string, sep: string): (parts: seq<string>)
    requires sep != []
    ensures |parts| >= 1
    decreases |s|
  {
    if sep <= s then [[]] + Split(s[|sep|..], sep)
    else if s == [] then [[]]
    else
      var rest := Split(s[1..], sep);
      [[s[0]] + rest[0]] + rest[1..]
  }

  /** Python's `sep.join(parts)`. */
  function Join(parts: seq<string>, sep: string): string
    requires |parts| >= 1
    decreases |parts|
  {
    if |parts| == 1 then parts[0] else parts[0] + sep + Join(parts[1..], sep)
  }

  /** Splitting loses nothing: joining the pieces back gives the original string. */
  lemma {:induction false} JoinSplit(s: string, sep: string)
    requires sep != []
    ensures Join(Split(s, sep), sep) == s
    decreases |s|
  {
    if sep <= s {
      var tail := s[|sep|..];
      JoinSplit(tail, sep);
      JoinCons([], Split(tail, sep), sep);
      assert s == sep + tail;
    } else if s != [] {
      var rest := Split(s[1..], sep);
      JoinSplit(s[1..], sep);
      JoinExtendFirst(s[0], rest, sep);
      assert s == [s[0]] + s[1..];
    }
  }

  /** Joining a piece in front of other pieces puts a separator between them. */
  lemma JoinCons(first: string, rest: seq<string>, sep: string)
    requires |rest| >= 1
    ensures Join([first] + rest, sep) == first + sep + Join(rest, sep)
  {
    assert ([first] + rest)[1..] == rest;
  }

  /** Putting a character in front of the first piece puts it in front of the join. */
  lemma JoinExtendFirst(c: char, parts: seq<string>, sep: string)
    requires |parts| >= 1
    ensures Join([[c] + parts[0]] + parts[1..], sep) == [c] + Join(parts, sep)
  {
    var ext := [[c] + parts[0]] + parts[1..];
    if |parts| > 1 {
      assert ext[1..] == parts[1..];
    }
  }

  /** `s.split(sep)` has more than one piece exactly when `sep in s`. */
  lemma {:induction false} SplitSeveralIff(s: string, sep: string)
    requires sep != []
    ensures |Split(s, sep)| >= 2 <==> Contains(s, sep)
    decreases |s|
  {
    if !(sep <= s) && s != [] {
      SplitSeveralIff(s[1..], sep);
    }
  }

  /** For a one-character separator, `s.split(c)` has one more piece than `s` has copies of `c`. */
  lemma {:induction false} SplitCharCount(s: string, c: char)
    ensures |Split(s, [c])| == 1 + multiset(s)[c]
    decreases |s|
  {
    if s != [] {
      SplitCharCount(s[1..], c);
      assert s == [s[0]] + s[1..];
      assert multiset(s) == multiset([s[0]]) + multiset(s[1..]);
    }
  }

  /** A string with no occurrence of `sep` splits into itself alone. */
  lemma {:induction false} SplitWithout(s: string, sep: string)
    requires sep != [] && !Contains(s, sep)
    ensures Split(s, sep) == [s]
    decreases |s|
  {
    if s != [] {
      SplitWithout(s[1..], sep);
      assert [s[0]] + s[1..] == s;
    }
  }

  /** When `sep` first occurs right after `a`, splitting `a + sep + b` yields `a`
      followed by the pieces of `b`. */
  lemma {:induction false} SplitAfter(a: string, sep: string, b: string)
    requires sep != []
    requires forall i | 0 <= i < |a| :: !(sep <= (a + sep + b)[i..])
    ensures Split(a + sep + b, sep) == [a] + Split(b, sep)
    decreases |a|
  {
    var s := a + sep + b;
    if a == [] {
      assert s == sep + b;
      assert s[|sep|..] == b;
    } else {
      assert !(sep <= s[0..]);
      assert s[0..] == s;
      assert s[1..] == a[1..] + sep + b;
      forall i | 0 <= i < |a[1..]|
        ensures !(sep <= (a[1..] + sep + b)[i..])
      {
        assert (a[1..] + sep + b)[i..] == s[i + 1..];
      }
      SplitAfter(a[1..], sep, b);
      assert [s[0]] + a[1..] == a;
    }
  }
}

=== FILE: wrappers.dfy ===
/** Option, Result and Outcome, and the failures the price checker can raise.
    Each Failure but `Stalled` names one exception the program lets escape;
    all of them end the run (the driver catches and prints them). `Stalled`
    stands for the AlphaVantage retry loop that never ends. */
module Wrappers {

  datatype Option<+T> = None | Some(value: T)

  /** The exceptions of the modelled code, one constructor per raising site,
      and `Stalled` for the one loop that never returns. */
  datatype Failure =
    | BadFileDate(prefix: string)          // strptime of the file name's first 8 characters
    | MissingRicColumn                     // row['RIC'] on a file without a RIC column
    | NotLoaded                            // compare, check_contents or generate_report before load_csv; `self.date.date()` on no date
    | MalformedRic(ric: string)            // `ticker, suffix = RIC.split('.')`
    | UnknownDatabase(ticker: string)      // quandl_db[ticker]
    | QuandlRequestFailed(key: string)     // quandl.get(key) raised
    | Stalled(ticker: string)              // AlphaVantage never answered: the source retries forever
    | BadHistoryDate(key: string)          // strptime of an AlphaVantage history key
    | BadFieldLabel(fieldKey: string)      // old_key.split('. ')[1]
    | UnknownFormat(id: Option<string>)    // `column` left unbound in compare
    | UnknownRic(ric: string)              // self.data[RIC]
    | MissingCell(ric: string, column: string)  // self.data[RIC][column]
    | MissingField(field: string)          // the getter's price lookup
    | NotANumber(text: Option<string>)     // float(...) of a text, or of None
    | DateOutOfRange                       // today + timedelta(days=offset) before year 1

  datatype Result<+T> = Ok(value: T) | Err(error: Failure) {
    predicate IsFailure() { Err? }

    function PropagateFailure<U>(): Result<U>
      requires Err?
    {
      Err(error)
    }

    function Extract(): T
      requires Ok?
    {
      value
    }
  }

  datatype Outcome = Pass | Fail(error: Failure) {
    predicate IsFailure() { Fail? }

    function PropagateFailure(): Outcome
      requires Fail?
    {
      this
    }
  }
}
